=== FILE: README.md ===
# Icon catalog workers, modelled in Dafny

This project models the core of the Mikephie icon site: the admin worker
that uploads, renames and deletes icons in an R2 bucket and keeps the
`icons.json` manifest in step with the bucket, the thumbnail worker, the
read-through gateway worker, and the pure helpers of the browser client.

| file | module | models |
|---|---|---|
| strings.dfy | `Strings` | the JavaScript string operations the code relies on: `toLowerCase` (ASCII), `trim`, `startsWith`/`endsWith`/`includes`, `lastIndexOf`, `String(n)`, code-point order |
| keys.dfy | `Keys` | `normalizeKey` and `materializeKey` (worker/icon-api.js) |
| catalog.dfy | `Catalog` | `getExt`, `isImageKey`, `makePublicUrl`, `listAllObjects`, `rebuildIcons`, the manifest payload |
| store.dfy | `Store` | the bucket as a map, its paged listing, `rebuildIcons` against the bucket, `saveIconsJson`, the catalog invariant |
| icon_api.dfy | `IconApi` | the DELETE handler, the `refresh-icons` and `rename` actions, the multipart upload, and the dispatcher |
| thumb.dfy | `Thumb` | worker/thumb.js: parameter choice, 400/404 answers, resize options and headers |
| gateway.dfy | `Gateway` | worker/r2-icon-api.js: key from path, content-type detection, headers |
| json.dfy | `Json` | JSON values as `JSON.parse` returns them: truthiness, member lookup, `String(v)`, `Object.keys` |
| client.dfy | `Client` | assets/app.js: `escapeHtml`, `applyFilter`, `thumbUrl`, `loadExisting` |

A request to the admin worker is a function from the bucket and the request
to the new bucket and the response (`IconApi.Outcome`). Every successful
request ends with `saveIconsJson(await rebuildIcons())`. The central
invariant is `Store.CatalogConsistent`: the manifest exists, its count is
its number of entries, and its entries are exactly the image keys of the
bucket, sorted by name, each with its public URL. Every successful request
re-establishes it. A refused request leaves the bucket untouched.

Things the code takes from the runtime are parameters:
- the URL parser and `decodeURIComponent` are the two fields of `Keys.Platform`, and either may fail;
- the five base-36 characters drawn from `Math.random()` are the `suffix` argument;
- `new Date().toISOString()` is the `now` argument.

Where the code only writes an encoding, the model adds the reading that
undoes it, so that round trips can be stated: `Client.DecodeKeyPath` is
`decodeURIComponent` on the characters the client's encoders write (an
escape of a whole UTF-8 sequence becomes its character). It is not code
of the site.

Some facts about the code that the model keeps as they are:
- the thumbnail worker passes width, height and quality on without clamping them, and takes any format text;
- its responses carry `Cache-Control: public, max-age=86400` and no other caching header;
- deleting or renaming `icons.json` is refused with 400;
- the disambiguated upload key is written without checking whether it is taken too;
- `listAllObjects` follows the listing's cursor for as many pages as there are.

## Model

| member | source | states |
|---|---|---|
| Strings.OrElse | worker/thumb.js:36-40 | the or-fallback on an optional string: a present non-empty value wins, otherwise the fallback |
| Strings.ToLowerIdempotent | worker/icon-api.js:22 | lower-casing twice is lower-casing once |
| Strings.LastIndexOf | worker/icon-api.js:136 | `lastIndexOf` finds nothing exactly when the character is absent; otherwise the character is at that index and not after it |
| Strings.Trim | worker/icon-api.js:35 | `trim()` is a slice of the input with only white space cut off, and neither end of the result is white space |
| Strings.TrimOfTrimmed | worker/icon-api.js:35 | trimming a text without surrounding white space changes nothing |
| Strings.NatToStringRoundTrip | worker/r2-icon-api.js:40 | `String(n)` is all digits and reads back as `n` |
| Strings.LexLeTransitive | worker/icon-api.js:57 | the name order used for sorting is transitive |
| Strings.LexLeTotal | worker/icon-api.js:57 | any two names are comparable |
| Strings.LexLeAntisymmetric | worker/icon-api.js:57 | two names ordered both ways are equal |
| Keys.NormalizeKey | worker/icon-api.js:26-31 | the result has no backslash, no leading slash and no doubled slash |
| Keys.NormalizeFixedPoint | worker/icon-api.js:26-31 | a key already in canonical form is left unchanged |
| Keys.NormalizeIdempotent | worker/icon-api.js:26-31 | normalising twice is normalising once |
| Keys.NormalizeKeepsLetters | worker/icon-api.js:26-31 | normalising changes only separators: the non-separator characters stay, in order |
| Keys.NormalizeBackslashIsSlash | worker/icon-api.js:27 | a backslash anywhere in a key normalises exactly as a slash in its place would |
| Keys.NormalizeLeadingSlash | worker/icon-api.js:28 | a slash in front of a key is dropped |
| Keys.NormalizeDoubleSlash | worker/icon-api.js:29 | two slashes in a row anywhere in a key normalise as one; with the two laws above and the fixed point this pins `normalizeKey` down on every input |
| Keys.StripAround | worker/icon-api.js:28 | stripping leading slashes stops inside the first part unless that part is all slashes |
| Keys.CollapseDoubleSlash | worker/icon-api.js:29 | collapsing treats a doubled slash exactly as a single one, wherever it stands |
| Keys.MaterializeKey | worker/icon-api.js:33-40 | a missing or empty input gives the empty key; any other input gives a canonical key |
| Keys.MaterializeRelativeKey | worker/icon-api.js:33-40 | a trimmed relative key that is not a URL comes back as the normal form of its decoding |
| Keys.MaterializeToDecoded | worker/icon-api.js:33-40 | a relative key whose decoding is already canonical materialises to that decoding |
| Keys.MaterializeDecodesEachCall | worker/icon-api.js:38 | each call decodes once: `%2541.png` gives `%41.png`, and materialising that again gives `A.png` |
| Catalog.GetExt | worker/icon-api.js:22 | the extension is empty, or a dot followed by at least one character and no further dot |
| Catalog.GetExtIsLowerSuffix | worker/icon-api.js:22 | for an extension-shaped `e`, `getExt(k) == e` exactly when the lower-cased key ends with `e` |
| Catalog.IsImageKeyBySuffix | worker/icon-api.js:23 | a key is an image exactly when it is not the manifest and its lower-cased form ends with an allowed extension |
| Catalog.ManifestIsNotAnImage | worker/icon-api.js:23 | `icons.json` is never an image key |
| Catalog.MakePublicUrl | worker/icon-api.js:24 | the URL is the public base, a slash, then the key unchanged |
| Catalog.PublicUrlInjective | worker/icon-api.js:24 | different keys get different public URLs |
| Catalog.FlattenAppend | worker/icon-api.js:44-52 | the keys of two runs of pages are the keys of the first run, then those of the second |
| Catalog.ListAllObjects | worker/icon-api.js:44-52 | the keys of the first page come first, and every returned key is on some page that was read |
| Catalog.ListAllObjectsComplete | worker/icon-api.js:44-52 | on a complete listing the loop returns every key of every page, in order |
| Catalog.ListAllObjectsStopsAtFirstFinalPage | worker/icon-api.js:46-50 | the loop stops at the first page without a continuation, and later answers are never read |
| Catalog.RebuildIcons | worker/icon-api.js:53-59 | the rebuilt list is sorted by name, holds an entry with the public URL for every listed image key, and names nothing else |
| Catalog.ImageKeysOf | worker/icon-api.js:55 | the filter keeps exactly the listed image keys |
| Catalog.InsertByName | worker/icon-api.js:57 | insertion keeps the list sorted and adds exactly the one entry |
| Catalog.SortByName | worker/icon-api.js:57 | the sort's output is sorted by name and a permutation of its input |
| Catalog.RebuildDescribesImageKeys | worker/icon-api.js:53-59 | for a listing without repeated keys, the rebuilt list names each listed image key once, sorted, with its public URL, and nothing else |
| Catalog.SortedEntriesDescribe | worker/icon-api.js:56-57 | any name-sorted permutation of the entries of distinct keys describes exactly those keys |
| Catalog.MakeManifest | worker/icon-api.js:61 | the payload carries the fixed title and description, the timestamp, the icons, and their number as `count` |
| Store.SortedKeys | worker/icon-api.js:47 | the bucket's keys in strictly ascending order: each key exactly once |
| Store.Paginate | worker/icon-api.js:47-49 | pages of at most 1000 keys whose concatenation is the key list, each but the last continuing |
| Store.ListBucket | worker/icon-api.js:44-52 | `listAllObjects("")` on the bucket returns its keys in order |
| Store.Rebuild | worker/icon-api.js:53-59 | `rebuildIcons()` describes exactly the bucket's image keys |
| Store.SaveIconsJson | worker/icon-api.js:60-66 | the manifest is written under `icons.json` with JSON type and `no-store`; no other key changes |
| Store.RebuildAndSave | worker/icon-api.js:60-66 | after rebuild and save the catalog invariant holds, only the manifest changed, and the count is the number of image keys |
| IconApi.Commit | worker/icon-api.js:79 | the closing step of a request keeps every key other than the manifest and re-establishes the catalog invariant |
| IconApi.HandleDelete | worker/icon-api.js:69-80 | a DELETE without a `key` parameter is refused with 400 and changes nothing; it succeeds exactly when the materialised key is a stored key other than the manifest, and then only that key is gone and the catalog is consistent |
| IconApi.DeleteKey | worker/icon-api.js:69-80 | 400 exactly for an empty key or the manifest, 404 exactly for an absent key, 200 otherwise; on 200 only that key is gone and the catalog invariant holds, and a refusal changes nothing |
| IconApi.HandleRefresh | worker/icon-api.js:96-99 | refreshing answers 200, changes only the manifest, and reports the number of image keys |
| IconApi.Copied | worker/icon-api.js:110-113 | the copy keeps the body, takes the old content type or octet-stream when it has none, and carries no cache header |
| IconApi.RenameRefusal | worker/icon-api.js:102-108 | 400 exactly for a missing key or the manifest on either side, 404 exactly for an absent old key |
| IconApi.RenameKeysAsWritten | worker/icon-api.js:101-117 | the rename as written: on 200 the old key is gone and every other key but the manifest is as after putting the copy under the new key, so two equal keys lose the object; the reply names both keys and the image count |
| IconApi.RenameAsWritten | worker/icon-api.js:101-117 | the rename action as written: a missing `oldKey` or `key` field is refused with 400 and changes nothing; on 200 the materialised old key was stored, is gone, and the catalog is consistent |
| IconApi.RenameOntoItselfDeletes | worker/icon-api.js:110-114 | as written, renaming a stored key onto itself answers 200 and leaves the object deleted |
| IconApi.RenameKeys | worker/icon-api.js:101-117 | the corrected rename: the new key holds the old body; the old key is gone only when the keys differ; refusals change nothing |
| IconApi.Rename | worker/icon-api.js:101-117 | the corrected rename action: a missing field is refused with 400 and changes nothing; on 200 the materialised new key holds the old key's bytes and the catalog is consistent |
| IconApi.RenameOntoItselfKeeps | worker/icon-api.js:110-114 | corrected, renaming a key onto itself keeps its object |
| IconApi.RenameAgreesOnDistinctKeys | worker/icon-api.js:101-117 | on two different keys the corrected rename and the rename as written agree |
| IconApi.AllowOverwrite | worker/icon-api.js:132 | overwriting is allowed when the field is missing or empty, and otherwise only for the text `true` |
| IconApi.Disambiguate | worker/icon-api.js:136-139 | the new key is the old key with an underscore and the suffix inserted at its last dot, or at its end when it has no dot |
| IconApi.DisambiguateKeepsExt | worker/icon-api.js:136-139 | inserting the suffix before the last dot keeps the extension |
| IconApi.DisambiguateIsImage | worker/icon-api.js:136-139 | the disambiguated key of an image key is an image key |
| IconApi.UploadedObject | worker/icon-api.js:143-145 | the stored object holds the file's bytes and its type, or octet-stream when the type is empty |
| IconApi.KeyUsed | worker/icon-api.js:132-141 | the requested key is used unless overwriting is off and it exists; then another image key with the same extension is used |
| IconApi.UploadFile | worker/icon-api.js:128-148 | 400 exactly for a key that is not an image key and 200 exactly for an image key; on 200 only the used key changes, an existing object survives disambiguation, and the catalog invariant holds |
| IconApi.HandleUpload | worker/icon-api.js:124-126 | a missing file field, or text in its place, is refused with 400 before anything else |
| IconApi.Dispatch | worker/icon-api.js:69-152 | DELETE goes to the delete handler on the materialised `key`, `refresh-icons` to the refresh, an unknown action gets 400, an upload without a file gets 400, and an upload with a file goes to the upload handler on the materialised `key || file.name` |
| IconApi.Handle | worker/icon-api.js:69-152 | the worker as written, rename included: every request answers 200, 400 or 404; a refusal changes nothing, and a success leaves the catalog consistent |
| IconApi.HandlePreservesCatalog | worker/icon-api.js:69-152 | as written, the catalog invariant holds after every request once it held before |
| IconApi.HandleFixed | worker/icon-api.js:69-152 | the dispatcher with the corrected rename: the same statuses, refusals change nothing, successes leave the catalog consistent |
| IconApi.HandleFixedPreservesCatalog | worker/icon-api.js:69-152 | with the corrected rename the catalog invariant is kept too |
| IconApi.HandleFixedAgrees | worker/icon-api.js:69-152 | the corrected dispatcher answers every request as the worker does, except a rename whose two keys materialise to the same key |
| IconApi.HandleRenameOntoItself | worker/icon-api.js:101-117 | a rename request naming a stored key twice answers 200 and loses the object as written, and keeps it corrected |
| Thumb.Param | worker/thumb.js:20 | `searchParams.get` returns the value of the first pair with that name, and nothing only when no pair has it |
| Thumb.ParamIgnoresLaterPairs | worker/thumb.js:20 | pairs after the first occurrence of a name do not change what `get` returns |
| Thumb.ChooseOptions | worker/thumb.js:36-49 | width from `w`, then `width`, then 200; height from `h`, then `height`, then the width; fit, quality and format with their own fallbacks |
| Thumb.SquareByDefault | worker/thumb.js:37 | a query that gives only `w` gets a square thumbnail |
| Thumb.Defaults | worker/thumb.js:36-40 | a query with only `file` gives 200 by 200, cover, quality 80, webp |
| Thumb.QualityNotClamped | worker/thumb.js:39 | an out-of-range quality is passed on as it came |
| Thumb.EtagOf | worker/thumb.js:58-60 | the etag is sent exactly when the source has a non-empty one |
| Thumb.HandleThumb | worker/thumb.js:20-71 | 400 without a file parameter, 404 for an absent object, otherwise the source bytes with `image/<format>`, a one-day cache and the chosen options |
| Thumb.MissingFileIgnoresBucket | worker/thumb.js:20-27 | without a file parameter the bucket is never consulted |
| Thumb.OutcomeDependsOnFileOnly | worker/thumb.js:20-33 | only the file parameter and the bucket decide between 400, 404 and 200 |
| Gateway.KeyFromPath | worker/r2-icon-api.js:17-22 | the key is the path without its leading slashes, or `icons.json` when nothing else is left |
| Gateway.KeyOfSlashPath | worker/r2-icon-api.js:17 | `/k` names the key `k` |
| Gateway.RootIsManifest | worker/r2-icon-api.js:20-22 | the root path names the manifest |
| Gateway.DetectContentType | worker/r2-icon-api.js:61-69 | a key whose lower-cased form ends with a table extension gets that extension's type, and octet-stream exactly when it ends with none of them |
| Gateway.EndingByTable | worker/r2-icon-api.js:63-67 | the chain of `endsWith` tests gives the type of whichever table extension the lower-cased key ends with, whatever the order of the tests |
| Gateway.EndingDefault | worker/r2-icon-api.js:63-68 | the chain falls through to octet-stream exactly when no table extension matches |
| Gateway.ManifestDetectedAsJson | worker/r2-icon-api.js:63 | the manifest is detected with the same type the admin worker stores it with |
| Gateway.ContentTypeFor | worker/r2-icon-api.js:34-36 | a non-empty stored type wins, otherwise the detected one |
| Gateway.HandleGateway | worker/r2-icon-api.js:8-44 | 204 exactly for OPTIONS, 404 exactly for an absent key, otherwise the bytes with a content length that reads back as their number and a 60-second cache |
| Gateway.MethodsOtherThanOptionsRead | worker/r2-icon-api.js:10-44 | every method other than OPTIONS is answered as GET is |
| Json.LookupFindsLast | assets/app.js:255-263 | the search from the end behind a member access finds nothing exactly when no member has the name, and otherwise the value of the last member of that name |
| Json.Get | assets/app.js:255-263 | a member access finds nothing exactly when no member has the name, and otherwise the last one of that name |
| Json.LookupAppend | assets/app.js:265 | members appended after others decide a lookup when one has the name, and leave it to the earlier ones otherwise |
| Json.MemberNames | assets/app.js:259 | `Object.keys` lists each member name exactly once |
| Json.MemberNamesOfDistinct | assets/app.js:259 | with pairwise different names the names come in the members' order, which is `Object.keys`'s order when no name is an array index |
| Client.Escape | assets/app.js:24 | the escaped text contains none of `< > " '` |
| Client.UnescapeEscape | assets/app.js:22-25 | the entities read back to the original text: escaping loses nothing |
| Client.EscapePlain | assets/app.js:22-25 | a text without the five special characters is left unchanged |
| Client.EscapeHtml | assets/app.js:22-25 | `null` and `undefined` give the empty string; a string is escaped |
| Client.ApplyFilter | assets/app.js:232-244 | the filter fails exactly when the list holds `null`; otherwise it keeps exactly the entries that pass both tests |
| Client.FilterCounts | assets/app.js:235-241 | every entry that passes both tests stays as often as it occurs in the list, and no other entry stays |
| Client.FilterIsSubsequence | assets/app.js:235-241 | the filtered list keeps the original order |
| Client.EmptyFilterKeepsAll | assets/app.js:233-240 | with both boxes empty every entry is shown |
| Client.FilterIdempotent | assets/app.js:232-244 | filtering the filtered list again changes nothing |
| Client.ClearedFilterStaysNarrowed | assets/app.js:112 | as written, the filtered list becomes `exAll`, so an entry a search hid stays hidden when both boxes are cleared |
| Client.FilterView | assets/app.js:232-244 | corrected, the filter keeps the loaded list and shows exactly its entries that pass both tests |
| Client.ClearedFilterShowsAll | assets/app.js:232-244 | corrected, clearing both boxes after any filter shows the whole loaded list |
| Client.FilterViewForgetsEarlierFilters | assets/app.js:232-244 | corrected, what a filter shows does not depend on earlier filters |
| Client.ThumbBase | assets/app.js:19 | no configured base gives the empty base; a base ending in a slash loses exactly that one slash, any other base is kept as it is |
| Client.EncodeComponent | assets/app.js:105 | the encoding is never shorter than the text |
| Client.EncodeComponentRoundTrip | assets/app.js:105 | `decodeURIComponent` reads back every text `encodeURIComponent` wrote |
| Client.EncodeUnreservedText | assets/app.js:105 | `encodeURIComponent` leaves a text of unreserved characters unchanged |
| Client.ChooseParams | assets/app.js:88-92 | size, fit, quality and format each come from their option, in the code's order of precedence, and otherwise default to 180, `cover`, 85 and `webp` each on its own |
| Client.ThumbDefaults | assets/app.js:88-92 | with no size and no options the thumbnail is 180 by 180, cover, quality 85, webp |
| Client.ThumbQuery | assets/app.js:105 | the query starts `?w=<size>&h=<size>&fit=` and ends with `&format=` and the encoded format |
| Client.DefaultQuery | assets/app.js:105 | the default parameters give exactly `?w=180&h=180&fit=cover&q=85&format=webp` |
| Client.DefaultThumbUrl | assets/app.js:88-105 | with no size and no options a non-URL key becomes `<base>/<encoded key>?w=180&h=180&fit=cover&q=85&format=webp` |
| Client.EncodeKeyPath | assets/app.js:104 | the encoded key holds only unreserved characters, slashes and the `%` of escapes |
| Client.EncodeKeyPathPlain | assets/app.js:104 | a key of unreserved characters and slashes goes into the path unchanged |
| Client.Utf8Decodes | assets/app.js:104 | the UTF-8 bytes `encodeURIComponent` escapes read back: the lead byte gives the length and the bytes give the character |
| Client.DecodeEscape | assets/app.js:104 | the escapes of one character's bytes decode to that character, whatever follows |
| Client.EncodeKeyPathRoundTrip | assets/app.js:104 | decoding the path part of a thumbnail URL gives back the key |
| Client.EncodeKeyPathInjective | assets/app.js:104 | two different keys never get the same thumbnail path |
| Client.ThumbUrlQueryIntact | assets/app.js:103-105 | whatever the key holds, the first `?` of the URL starts the thumbnail parameters and no `#` comes before it |
| Client.ThumbUrl | assets/app.js:88-106 | an empty key gives the empty URL, a key that parses as a URL is not modelled, no base gives the key itself, and otherwise base, encoded key and query |
| Client.EntryOf | assets/app.js:262-267 | a string member becomes `{name, url}`; an object member is copied over `{name}`, so its own `name` wins and every other member is kept; an array member is copied over `{name}`, each item under its index; anything else gives `{name}` |
| Client.LoadExisting | assets/app.js:253-272 | `null` fails; an array is shown as it is; then an `items` array, then a `files` array; then an object with members, none of whose names is all digits, gives one entry per name; anything else gives an empty list |
| Client.LoadExistingOfKeyed | assets/app.js:258-267 | an object keyed by distinct names, none of them all digits, with no object among its values and without `items` or `files` arrays, is shown as one entry per member, named after it, in order |
| Client.LoadExistingShowsManifestFields | assets/app.js:253-272 | as written, the worker's own manifest is shown as five entries named after its fields |
| Client.LoadExistingFixed | assets/app.js:253-272 | the corrected loader also reads an `icons` array and otherwise agrees with the original |
| Client.LoadExistingFixedReadsIcons | assets/app.js:253-272 | corrected, the worker's own manifest is shown as exactly its icons, in order |

## Left out

- HTTP plumbing is not modelled. This covers the CORS headers and the admin worker's OPTIONS 204 and 405 fallback.
- Bucket calls are assumed to succeed, so the 500 answers of the `catch` blocks are not modelled. A call that fails after an earlier write leaves that write in place: a rename whose `put` succeeded and whose `delete` failed keeps both keys, and a DELETE or upload whose listing or save failed leaves `icons.json` stale.
- Multipart and form parsing is not modelled. The handlers receive the already parsed fields.
- The URL parser and `decodeURIComponent` are not modelled. They are left to `Keys.Platform`, because their grammar is not part of this code.
- `Math.random()` and `new Date()` are parameters, because they are not deterministic.
- `localeCompare` is modelled as code-point order; its real order depends on the locale. The bucket lists keys in UTF-8 byte order, which is code-point order, so `Store.SortedKeys` is exact.
- `toLowerCase` is modelled for ASCII letters only. This is exact for every extension and content-type decision, but the client's search box lower-cases non-ASCII text that the model keeps.
- Strings are sequences of Unicode scalar values, not UTF-16 code units.
- The image transformation itself happens after the thumbnail worker returns, so only the options handed to it are modelled.
- The manifest is stored as a structured record, not as JSON text. The client side starts from the parsed document (`Client.ManifestJson`).
- JSON numbers are integers. Fractions do not occur in the documents these functions read.
- Client.ThumbUrl: the branch for a key that parses as an absolute URL (assets/app.js:94-99) rewrites that URL's query and is modelled only as `None`.
- Client.LoadExisting: the `data.items || []` fallback (assets/app.js:270) is never an array at that point and is shown as an empty list.
- Json.MemberNames lists names that are array indices in member order, while `Object.keys` lists them first in ascending numeric order; so does Json.MemberNamesOfDistinct. The one use, the keyed branch of `loadExisting`, makes entries only when no name is all digits, and every array index is all digits, so what it shows is unaffected.
- The other files are not part of this model: the client's DOM rendering, uploads and network calls (assets/app.js), the service worker (sw.js), the Pages middleware (_middleware.js, functions/[[path]].js) and the older gateway (worker/icon-gateway.js).
- Concurrency between requests is not modelled. Each request is applied to the bucket as one step.

## Findings

| source | as written | input that shows it | evidently intended | confidence | as-written member | corrected member |
|---|---|---|---|---|---|---|
| worker/icon-api.js:110-114 | rename copies to `key`, then deletes `oldKey` | `action=rename&oldKey=a.png&key=a.png` with `a.png` stored: 200, and `a.png` is gone | renaming onto the same key keeps the object | high, not executed | IconApi.RenameOntoItselfDeletes | IconApi.RenameOntoItselfKeeps |
| assets/app.js:253-272 | `loadExisting` reads `items` and `files` but never `icons` | the manifest written by worker/icon-api.js:61: the list shows five entries named `title`, `desc`, `updatedAt`, `count`, `icons` | the manifest's `icons` array is shown | high, not executed | Client.LoadExistingShowsManifestFields | Client.LoadExistingFixedReadsIcons |
| assets/app.js:112 | `applyFilter` renders the filtered list, and `renderList` makes it the new `exAll`, the list the next filter starts from | entries `a.png` and `b.png`, search `a`, then the search box cleared: only `a.png` is shown | clearing the boxes shows every loaded entry again | high, not executed | Client.ClearedFilterStaysNarrowed | Client.ClearedFilterShowsAll |

=== FILE: catalog.dfy ===
/**
 The catalog of the admin worker (worker/icon-api.js): which keys are
 images, the public URL of a key, how a listing of the bucket is read page
 by page (`listAllObjects`), how the sorted list of `{name, url}` entries is
 derived from the listed keys (`rebuildIcons`), and the manifest record that
 `saveIconsJson` writes.
 */
module Catalog {
  import opened Strings

  /** The reserved key of the manifest. */
  const IconsKey: string := "icons.json"
  const PublicBase: string := "https://images.mikephie.com"
  const AllowedExts: seq<string> := [".png", ".jpg", ".jpeg", ".gif", ".webp", ".svg", ".ico", ".bmp"]

  const ManifestTitle: string := "Mikephie图标订阅"
  const ManifestDesc: string := "收集一些自己脚本用到的图标"

  /* ---------- extensions ---------- */

  /** An extension as `getExt` returns it: a dot followed by at least one non-dot character. */
  predicate IsExtShape(e: string) {
    |e| >= 2 && e[0] == '.' && '.' !in e[1..]
  }

  /**
   `getExt(n)`: the part of `n` from its last dot to the end, lower-cased,
   or "" when `n` has no dot or ends with one.
   */
  function GetExt(n: string): (r: string)
    ensures r == [] || IsExtShape(r)
  {
    match LastIndexOf(n, '.')
    case None => []
    case Some(i) => if i == |n| - 1 then [] else ToLower(n[i..])
  }

  /** `isImageKey(k)`: not the manifest, and an allowed extension. */
  predicate IsImageKey(k: string) {
    k != IconsKey && GetExt(k) in AllowedExts
  }

  lemma LowerCharIsDot(c: char)
    ensures LowerChar(c) == '.' <==> c == '.'
  {
  }

  lemma ToLowerSuffix(k: string, d: nat)
    requires d <= |k|
    ensures ToLower(k[d..]) == ToLower(k)[d..]
  {
  }

  /** The last dot of `k` is at `d` when `k[d]` is a dot and none follows. */
  lemma LastDotAt(k: string, d: nat)
    requires d < |k| && k[d] == '.'
    requires forall j :: d < j < |k| ==> k[j] != '.'
    ensures LastIndexOf(k, '.') == Some(d)
  {
    assert k[d] in k;
  }

  lemma LowerSuffixGivesExt(k: string, e: string)
    requires IsExtShape(e) && EndsWith(ToLower(k), e)
    ensures GetExt(k) == e
  {
    var low := ToLower(k);
    var d := |k| - |e|;
    LowerCharIsDot(k[d]);
    assert low[d] == e[0];
    forall j | d < j < |k|
      ensures k[j] != '.'
    {
      LowerCharIsDot(k[j]);
      assert low[j] == e[j - d];
      assert e[j - d] in e[1..];
    }
    LastDotAt(k, d);
    ToLowerSuffix(k, d);
  }

  lemma ExtGivesLowerSuffix(k: string, e: string)
    requires IsExtShape(e) && GetExt(k) == e
    ensures EndsWith(ToLower(k), e)
  {
    var li := LastIndexOf(k, '.');
    ToLowerSuffix(k, li.value);
  }

  /**
   For an extension-shaped `e`, `getExt(k) == e` exactly when the
   lower-cased key ends with `e`.
   */
  lemma GetExtIsLowerSuffix(k: string, e: string)
    requires IsExtShape(e)
    ensures GetExt(k) == e <==> EndsWith(ToLower(k), e)
  {
    if EndsWith(ToLower(k), e) {
      LowerSuffixGivesExt(k, e);
    }
    if GetExt(k) == e {
      ExtGivesLowerSuffix(k, e);
    }
  }

  /**
   The allowed-extension test without `getExt`: a key other than the
   manifest is an image exactly when its lower-cased form ends with one of
   the allowed extensions.
   */
  lemma IsImageKeyBySuffix(k: string)
    ensures IsImageKey(k) <==> k != IconsKey && exists e :: e in AllowedExts && EndsWith(ToLower(k), e)
  {
    forall e | e in AllowedExts
      ensures GetExt(k) == e <==> EndsWith(ToLower(k), e)
    {
      GetExtIsLowerSuffix(k, e);
    }
  }

  /** The manifest key is never an image, whatever its extension test says. */
  lemma ManifestIsNotAnImage()
    ensures !IsImageKey(IconsKey)
  {
  }

  /* ---------- public URLs ---------- */

  /** `makePublicUrl(key)`: the key is appended to the public base as it is, not re-encoded. */
  function MakePublicUrl(key: string): (r: string)
    ensures StartsWith(r, PublicBase + "/")
    ensures r[|PublicBase| + 1..] == key
  {
    PublicBase + "/" + key
  }

  lemma PublicUrlInjective(a: string, b: string)
    requires MakePublicUrl(a) == MakePublicUrl(b)
    ensures a == b
  {
    assert a == MakePublicUrl(a)[|PublicBase| + 1..];
  }

  /* ---------- listing ---------- */

  /** One answer of the bucket's `list` call: the keys of the page, and the continuation. */
  datatype Page = Page(objects: seq<string>, truncated: bool, cursor: Option<string>)

  /** The loop of `listAllObjects` asks for another page only after a truncated page with a non-empty cursor. */
  predicate Continues(p: Page) {
    p.truncated && p.cursor.Some? && p.cursor.value != []
  }

  /** The answers end: some page does not ask for a continuation. */
  predicate EventuallyStops(pages: seq<Page>) {
    exists j :: 0 <= j < |pages| && !Continues(pages[j])
  }

  /** A complete listing: every page but the last continues, and the last does not. */
  predicate WellFormedListing(pages: seq<Page>) {
    && |pages| > 0
    && (forall i :: 0 <= i < |pages| - 1 ==> Continues(pages[i]))
    && !Continues(pages[|pages| - 1])
  }

  /** All keys of all pages, in order. */
  function Flatten(pages: seq<Page>): (r: seq<string>)
  {
    if pages == [] then [] else pages[0].objects + Flatten(pages[1..])
  }

  /**
   `listAllObjects`: pages[i] is the bucket's answer to the i-th call. The
   keys of each page are collected; the loop goes on while the page was
   truncated and handed back a cursor.
   */
  function ListAllObjects(pages: seq<Page>): (out: seq<string>)
    requires EventuallyStops(pages)
    ensures pages[0].objects <= out
    ensures forall k :: k in out ==> exists i :: 0 <= i < |pages| && k in pages[i].objects
    decreases |pages|
  {
    if !Continues(pages[0]) then pages[0].objects
    else
      assert EventuallyStops(pages[1..]) by {
        var j :| 0 <= j < |pages| && !Continues(pages[j]);
        assert !Continues(pages[1..][j - 1]);
      }
      var rest := ListAllObjects(pages[1..]);
      assert forall k :: k in rest ==> exists i :: 0 <= i < |pages| && k in pages[i].objects by {
        forall k | k in rest
          ensures exists i :: 0 <= i < |pages| && k in pages[i].objects
        {
          var i :| 0 <= i < |pages[1..]| && k in pages[1..][i].objects;
          assert pages[1..][i] == pages[i + 1];
        }
      }
      pages[0].objects + rest
  }

  lemma {:induction false} FlattenAppend(a: seq<Page>, b: seq<Page>)
    ensures Flatten(a + b) == Flatten(a) + Flatten(b)
    decreases |a|
  {
    if a == [] {
      assert a + b == b;
    } else {
      var rest := a[1..] + b;
      assert a + b == [a[0]] + rest;
      FlattenAppend(a[1..], b);
      assert Flatten(a + b) == a[0].objects + Flatten(rest);
    }
  }

  /**
   On a complete listing `listAllObjects` returns the keys of every page,
   in order.
   */
  lemma {:induction false} ListAllObjectsComplete(pages: seq<Page>)
    requires WellFormedListing(pages)
    ensures EventuallyStops(pages)
    ensures ListAllObjects(pages) == Flatten(pages)
    decreases |pages|
  {
    assert !Continues(pages[|pages| - 1]);
    if Continues(pages[0]) {
      assert |pages| > 1;
      assert WellFormedListing(pages[1..]) by {
        forall i | 0 <= i < |pages[1..]| - 1
          ensures Continues(pages[1..][i])
        {
          assert pages[1..][i] == pages[i + 1];
        }
      }
      ListAllObjectsComplete(pages[1..]);
    } else {
      assert |pages| == 1;
      assert pages[1..] == [];
    }
  }

  /**
   The loop stops at the first page that does not continue: whatever the
   bucket would have answered afterwards is never read.
   */
  lemma {:induction false} ListAllObjectsStopsAtFirstFinalPage(pages: seq<Page>, j: nat)
    requires j < |pages| && !Continues(pages[j])
    requires forall i :: 0 <= i < j ==> Continues(pages[i])
    ensures EventuallyStops(pages)
    ensures ListAllObjects(pages) == Flatten(pages[..j + 1])
    decreases j
  {
    if j > 0 {
      assert pages[1..][j - 1] == pages[j];
      ListAllObjectsStopsAtFirstFinalPage(pages[1..], j - 1);
      assert pages[1..][..j] == pages[..j + 1][1..];
    } else {
      assert pages[..1][1..] == [];
    }
  }

  /* ---------- rebuildIcons ---------- */

  datatype Icon = Icon(name: string, url: string)

  /** The catalog entry of one key. */
  function EntryFor(key: string): Icon {
    Icon(key, MakePublicUrl(key))
  }

  /** `all.filter(o => isImageKey(o.key))`, on the listed keys. */
  function ImageKeysOf(keys: seq<string>): (r: seq<string>)
    ensures forall k :: k in r <==> k in keys && IsImageKey(k)
    ensures |r| <= |keys|
  {
    if keys == [] then []
    else (if IsImageKey(keys[0]) then [keys[0]] else []) + ImageKeysOf(keys[1..])
  }

  /** `imgs.map(o => ({name: o.key, url: makePublicUrl(o.key)}))` */
  function EntriesFor(keys: seq<string>): (r: seq<Icon>)
    ensures |r| == |keys|
    ensures forall i :: 0 <= i < |keys| ==> r[i] == EntryFor(keys[i])
  {
    seq(|keys|, i requires 0 <= i < |keys| => EntryFor(keys[i]))
  }

  predicate SortedByName(icons: seq<Icon>) {
    forall i, j :: 0 <= i < j < |icons| ==> LexLe(icons[i].name, icons[j].name)
  }

  /** Every entry of `s` has a name at least `lo`. */
  predicate AllAtLeast(lo: string, s: seq<Icon>) {
    forall i :: 0 <= i < |s| ==> LexLe(lo, s[i].name)
  }

  lemma ConsSorted(x: Icon, s: seq<Icon>)
    requires SortedByName(s) && AllAtLeast(x.name, s)
    ensures SortedByName([x] + s)
  {
    assert forall j :: 0 < j < |s| + 1 ==> ([x] + s)[j] == s[j - 1];
  }

  lemma AtLeastTransitive(lo: string, x: Icon, s: seq<Icon>)
    requires LexLe(lo, x.name) && AllAtLeast(x.name, s)
    ensures AllAtLeast(lo, s)
  {
    forall i | 0 <= i < |s|
      ensures LexLe(lo, s[i].name)
    {
      LexLeTransitive(lo, x.name, s[i].name);
    }
  }

  lemma AtLeastOfPermutation(lo: string, s: seq<Icon>, r: seq<Icon>)
    requires AllAtLeast(lo, s)
    requires multiset(r) <= multiset(s)
    ensures AllAtLeast(lo, r)
  {
    forall i | 0 <= i < |r|
      ensures LexLe(lo, r[i].name)
    {
      assert r[i] in multiset(s);
      var k :| 0 <= k < |s| && s[k] == r[i];
    }
  }

  /** Inserts `x` into a name-sorted sequence, before the first entry it does not follow. */
  function InsertByName(x: Icon, s: seq<Icon>): (r: seq<Icon>)
    requires SortedByName(s)
    ensures SortedByName(r)
    ensures multiset(r) == multiset(s) + multiset{x}
  {
    if s == [] then [x]
    else if LexLe(x.name, s[0].name) then
      InsertInFront(x, s);
      [x] + s
    else
      var rest := InsertByName(x, s[1..]);
      InsertBehindHead(x, s, rest);
      [s[0]] + rest
  }

  /** `x` goes first when it does not come after the head. */
  lemma InsertInFront(x: Icon, s: seq<Icon>)
    requires SortedByName(s) && s != [] && LexLe(x.name, s[0].name)
    ensures SortedByName([x] + s)
  {
    AtLeastTransitive(x.name, s[0], s[1..]);
    assert s == [s[0]] + s[1..];
    ConsSorted(x, s);
  }

  /** The head stays first when `x` comes after it and the rest already holds `x`, sorted. */
  lemma InsertBehindHead(x: Icon, s: seq<Icon>, rest: seq<Icon>)
    requires SortedByName(s) && s != [] && !LexLe(x.name, s[0].name)
    requires SortedByName(rest) && multiset(rest) == multiset(s[1..]) + multiset{x}
    ensures SortedByName([s[0]] + rest)
    ensures multiset([s[0]] + rest) == multiset(s) + multiset{x}
  {
    assert s == [s[0]] + s[1..];
    LexLeTotal(x.name, s[0].name);
    assert AllAtLeast(s[0].name, [x] + s[1..]) by {
      assert forall j :: 1 <= j < |s| ==> ([x] + s[1..])[j] == s[j];
    }
    assert multiset(rest) <= multiset([x] + s[1..]);
    AtLeastOfPermutation(s[0].name, [x] + s[1..], rest);
    ConsSorted(s[0], rest);
  }

  /** `icons.sort((a, b) => a.name.localeCompare(b.name))`, as an insertion sort on names. */
  function SortByName(s: seq<Icon>): (r: seq<Icon>)
    ensures SortedByName(r)
    ensures multiset(r) == multiset(s)
  {
    if s == [] then []
    else
      assert s == [s[0]] + s[1..];
      InsertByName(s[0], SortByName(s[1..]))
  }

  /** `rebuildIcons`, on the keys the listing produced. */
  function RebuildIcons(keys: seq<string>): (r: seq<Icon>)
    ensures SortedByName(r)
    ensures forall ic :: ic in r ==> ic.name in keys && IsImageKey(ic.name) && ic.url == MakePublicUrl(ic.name)
    ensures forall k :: k in keys && IsImageKey(k) ==> EntryFor(k) in r
  {
    var imgs := ImageKeysOf(keys);
    var r := SortByName(EntriesFor(imgs));
    SameElements(r, EntriesFor(imgs));
    EntriesSound(imgs, r);
    EntriesComplete(imgs, r);
    r
  }

  /* ---------- what a catalog must say ---------- */

  predicate Distinct(s: seq<string>) {
    forall i, j :: 0 <= i < j < |s| ==> s[i] != s[j]
  }

  function ToSet(s: seq<string>): set<string> {
    set k | k in s
  }

  /**
   `icons` describes the key set `keys`: sorted by name, one entry per key
   and nothing else, each with the key's public URL.
   */
  predicate Describes(icons: seq<Icon>, keys: set<string>) {
    && SortedByName(icons)
    && |icons| == |keys|
    && (forall ic :: ic in icons ==> ic.name in keys && ic.url == MakePublicUrl(ic.name))
    && (forall k :: k in keys ==> EntryFor(k) in icons)
  }

  lemma {:induction false} DistinctCard(s: seq<string>)
    requires Distinct(s)
    ensures |ToSet(s)| == |s|
    decreases |s|
  {
    if s != [] {
      DistinctCard(s[1..]);
      assert ToSet(s) == ToSet(s[1..]) + {s[0]};
      assert s[0] !in ToSet(s[1..]);
    }
  }

  lemma {:induction false} ImageKeysOfDistinct(keys: seq<string>)
    requires Distinct(keys)
    ensures Distinct(ImageKeysOf(keys))
    decreases |keys|
  {
    if keys != [] {
      ImageKeysOfDistinct(keys[1..]);
      var rest := ImageKeysOf(keys[1..]);
      assert keys[0] !in rest;
    }
  }

  lemma SameElements(r: seq<Icon>, s: seq<Icon>)
    requires multiset(r) == multiset(s)
    ensures |r| == |s|
    ensures forall ic :: ic in r <==> ic in s
  {
    assert |r| == |multiset(r)|;
    forall ic
      ensures ic in r <==> ic in s
    {
      assert ic in r <==> ic in multiset(r);
      assert ic in s <==> ic in multiset(s);
    }
  }

  /**
   The rebuilt catalog of a listing without repeated keys names exactly the
   listed image keys, once each, sorted, each with its public URL.
   */
  lemma RebuildDescribesImageKeys(keys: seq<string>)
    requires Distinct(keys)
    ensures Describes(RebuildIcons(keys), set k | k in keys && IsImageKey(k))
  {
    var imgs := ImageKeysOf(keys);
    assert ToSet(imgs) == set k | k in keys && IsImageKey(k);
    ImageKeysOfDistinct(keys);
    SortedEntriesDescribe(imgs, RebuildIcons(keys));
  }

  /** Any name-sorted arrangement of the entries of distinct keys describes those keys. */
  lemma SortedEntriesDescribe(keys: seq<string>, r: seq<Icon>)
    requires Distinct(keys)
    requires SortedByName(r) && multiset(r) == multiset(EntriesFor(keys))
    ensures Describes(r, ToSet(keys))
  {
    var entries := EntriesFor(keys);
    DistinctCard(keys);
    SameElements(r, entries);
    EntriesSound(keys, r);
    EntriesComplete(keys, r);
  }

  lemma EntriesSound(keys: seq<string>, r: seq<Icon>)
    requires forall ic :: ic in r <==> ic in EntriesFor(keys)
    ensures forall ic :: ic in r ==> ic.name in ToSet(keys) && ic.url == MakePublicUrl(ic.name)
  {
    var entries := EntriesFor(keys);
    forall ic | ic in r
      ensures ic.name in ToSet(keys) && ic.url == MakePublicUrl(ic.name)
    {
      var i :| 0 <= i < |entries| && entries[i] == ic;
    }
  }

  lemma EntriesComplete(keys: seq<string>, r: seq<Icon>)
    requires forall ic :: ic in r <==> ic in EntriesFor(keys)
    ensures forall k :: k in ToSet(keys) ==> EntryFor(k) in r
  {
    var entries := EntriesFor(keys);
    forall k | k in ToSet(keys)
      ensures EntryFor(k) in r
    {
      var i :| 0 <= i < |keys| && keys[i] == k;
      assert entries[i] in entries;
    }
  }

  /* ---------- the manifest ---------- */

  /** The payload `saveIconsJson` writes; `updatedAt` is the caller's timestamp. */
  datatype Manifest = Manifest(title: string, desc: string, updatedAt: string, count: int, icons: seq<Icon>)

  function MakeManifest(icons: seq<Icon>, now: string): (m: Manifest)
    ensures m.icons == icons && m.count == |m.icons| && m.updatedAt == now
    ensures m.title == ManifestTitle && m.desc == ManifestDesc
  {
    Manifest(ManifestTitle, ManifestDesc, now, |icons|, icons)
  }
}

=== FILE: client.dfy ===
/**
 The pure helpers of the browser client (assets/app.js): HTML escaping,
 the search/prefix filter of the existing-icons list, the thumbnail URL
 for a key, and the normalisation of the loaded manifest into a list of
 entries.
 */
module Client {
  import opened Strings
  import opened Json
  import Keys
  import Catalog

  /* ---------- escapeHtml ---------- */

  /** The entity for one character of `& < > " '`, the character itself for any other. */
  function EscapeChar(c: char): (r: string)
    ensures c !in "&<>\"'" ==> r == [c]
    ensures |r| >= 1 && '<' !in r && '>' !in r && '"' !in r && '\'' !in r
  {
    match c
    case '&' => "&amp;"
    case '<' => "&lt;"
    case '>' => "&gt;"
    case '"' => "&quot;"
    case '\'' => "&#39;"
    case _ => [c]
  }

  /** `String(s).replace(/[&<>"']/g, ...)` */
  function Escape(s: string): (r: string)
    ensures '<' !in r && '>' !in r && '"' !in r && '\'' !in r
    ensures |r| >= |s|
  {
    if s == [] then []
    else
      var head := EscapeChar(s[0]);
      var tail := Escape(s[1..]);
      assert forall c :: c in head + tail <==> c in head || c in tail;
      head + tail
  }

  /** `escapeHtml(v)`: `None` stands for `undefined`; `null` and `undefined` give the empty string. */
  function EscapeHtml(v: Option<Json>): (r: string)
    ensures v.None? || v.value.JNull? ==> r == []
    ensures v.Some? && v.value.JStr? ==> r == Escape(v.value.s)
  {
    if v.None? || v.value.JNull? then [] else Escape(ToJsString(v.value))
  }

  /** Reads the five entities back, leaving every other character as it is. */
  function Unescape(s: string): (r: string)
    decreases |s|
  {
    if s == [] then []
    else if s[0] != '&' then [s[0]] + Unescape(s[1..])
    else if StartsWith(s, "&amp;") then "&" + Unescape(s[5..])
    else if StartsWith(s, "&lt;") then "<" + Unescape(s[4..])
    else if StartsWith(s, "&gt;") then ">" + Unescape(s[4..])
    else if StartsWith(s, "&quot;") then "\"" + Unescape(s[6..])
    else if StartsWith(s, "&#39;") then "'" + Unescape(s[5..])
    else "&" + Unescape(s[1..])
  }

  lemma UnescapeAfterChar(c: char, rest: string)
    ensures Unescape(EscapeChar(c) + rest) == [c] + Unescape(rest)
  {
    var e := EscapeChar(c);
    var s := e + rest;
    assert s[..|e|] == e && s[|e|..] == rest;
    if c == '&' {
      assert StartsWith(s, "&amp;");
    } else if c == '<' {
      assert !StartsWith(s, "&amp;") by { assert s[1] == 'l'; }
      assert StartsWith(s, "&lt;");
    } else if c == '>' {
      assert !StartsWith(s, "&amp;") && !StartsWith(s, "&lt;") by { assert s[1] == 'g'; }
      assert StartsWith(s, "&gt;");
    } else if c == '"' {
      assert !StartsWith(s, "&amp;") && !StartsWith(s, "&lt;") && !StartsWith(s, "&gt;") by { assert s[1] == 'q'; }
      assert StartsWith(s, "&quot;");
    } else if c == '\'' {
      assert !StartsWith(s, "&amp;") && !StartsWith(s, "&lt;") && !StartsWith(s, "&gt;") && !StartsWith(s, "&quot;") by {
        assert s[1] == '#';
      }
      assert StartsWith(s, "&#39;");
    } else {
      assert s[0] == c && s[1..] == rest;
    }
  }

  /** Escaping loses nothing: the entities read back to the original text. */
  lemma {:induction false} UnescapeEscape(s: string)
    ensures Unescape(Escape(s)) == s
  {
    if s != [] {
      UnescapeAfterChar(s[0], Escape(s[1..]));
      UnescapeEscape(s[1..]);
      assert s == [s[0]] + s[1..];
    }
  }

  /** Text without the five special characters is left exactly as it is. */
  lemma {:induction false} EscapePlain(s: string)
    requires forall i :: 0 <= i < |s| ==> s[i] !in "&<>\"'"
    ensures Escape(s) == s
  {
    if s != [] {
      EscapePlain(s[1..]);
      assert s == [s[0]] + s[1..];
    }
  }

  /* ---------- applyFilter ---------- */

  /** `(it.name || it.file || it.key || '').toString().toLowerCase()` */
  function ItemName(it: Json): string {
    match FirstTruthy(Get(it, "name"), Get(it, "file"), Get(it, "key"))
    case Some(v) => ToLower(ToJsString(v))
    case None => []
  }

  /** `(it.path || it.key || it.name || '').toString()` */
  function ItemPath(it: Json): string {
    match FirstTruthy(Get(it, "path"), Get(it, "key"), Get(it, "name"))
    case Some(v) => ToJsString(v)
    case None => []
  }

  /** The search text as the filter uses it: lower-cased, then trimmed. */
  function Query(search: string): string {
    Trim(ToLower(search))
  }

  /** The callback of `exAll.filter`: both tests pass; an empty query or prefix passes its test. */
  predicate Keep(it: Json, search: string, prefix: string) {
    var q := Query(search);
    var p := Trim(prefix);
    && (q == [] || Contains(ItemName(it), q))
    && (p == [] || StartsWith(ItemPath(it), p))
  }

  /** `a` is `b` with some elements left out, the rest in order. */
  predicate IsSubsequence(a: seq<Json>, b: seq<Json>)
    decreases |b|
  {
    if a == [] then true
    else if b == [] then false
    else if a[0] == b[0] then IsSubsequence(a[1..], b[1..])
    else IsSubsequence(a, b[1..])
  }

  /**
   The list `applyFilter` renders from `exAll`. `None` stands for the
   TypeError thrown when the list holds `null` (reading `null.name`).
   */
  function ApplyFilter(items: seq<Json>, search: string, prefix: string): (r: Option<seq<Json>>)
    ensures r.None? <==> JNull in items
    ensures r.Some? ==> forall it :: it in r.value <==> it in items && Keep(it, search, prefix)
    ensures r.Some? ==> |r.value| <= |items|
  {
    if items == [] then Some([])
    else if items[0].JNull? then None
    else
      match ApplyFilter(items[1..], search, prefix)
      case None => None
      case Some(rest) =>
        FilterStep(items, rest, search, prefix);
        Some(if Keep(items[0], search, prefix) then [items[0]] + rest else rest)
  }

  /** One step of the filter: the head is kept exactly when it passes, after the filtered tail's elements. */
  lemma FilterStep(items: seq<Json>, rest: seq<Json>, search: string, prefix: string)
    requires items != [] && !items[0].JNull? && JNull !in items[1..]
    requires forall it :: it in rest <==> it in items[1..] && Keep(it, search, prefix)
    requires |rest| <= |items| - 1
    ensures JNull !in items
    ensures var r := if Keep(items[0], search, prefix) then [items[0]] + rest else rest;
      && (forall it :: it in r <==> it in items && Keep(it, search, prefix))
      && |r| <= |items|
  {
    assert items == [items[0]] + items[1..];
  }

  /** Every entry that passes both tests stays as often as it occurs; no other entry stays. */
  lemma {:induction false} FilterCounts(items: seq<Json>, search: string, prefix: string)
    requires JNull !in items
    ensures var r := ApplyFilter(items, search, prefix).value;
      forall it :: multiset(r)[it] == if Keep(it, search, prefix) then multiset(items)[it] else 0
  {
    if items != [] {
      NoNullInTail(items);
      FilterCounts(items[1..], search, prefix);
      FilterCons(items, search, prefix);
      var rest := ApplyFilter(items[1..], search, prefix).value;
      assert multiset(items) == multiset([items[0]]) + multiset(items[1..]);
      if Keep(items[0], search, prefix) {
        assert multiset([items[0]] + rest) == multiset([items[0]]) + multiset(rest);
      }
    }
  }

  /** The filtered list keeps the order of `exAll`. */
  lemma {:induction false} FilterIsSubsequence(items: seq<Json>, search: string, prefix: string)
    requires JNull !in items
    ensures IsSubsequence(ApplyFilter(items, search, prefix).value, items)
  {
    if items != [] {
      assert items[1..] == items[1..];
      assert JNull !in items[1..] by {
        assert forall x :: x in items[1..] ==> x in items;
      }
      FilterIsSubsequence(items[1..], search, prefix);
      var rest := ApplyFilter(items[1..], search, prefix).value;
      if !Keep(items[0], search, prefix) {
        SubsequenceOfTail(rest, items);
      }
    }
  }

  /** A subsequence of the tail is a subsequence of the whole. */
  lemma {:induction false} SubsequenceOfTail(a: seq<Json>, b: seq<Json>)
    requires b != [] && IsSubsequence(a, b[1..])
    ensures IsSubsequence(a, b)
    decreases |b|, 0
  {
    if a != [] && a[0] == b[0] {
      SubsequenceDropFirst(a, b[1..]);
    }
  }

  /** Dropping the first element of a subsequence keeps it a subsequence. */
  lemma {:induction false} SubsequenceDropFirst(a: seq<Json>, b: seq<Json>)
    requires a != [] && IsSubsequence(a, b)
    ensures IsSubsequence(a[1..], b)
    decreases |b|, 1
  {
    if a[0] == b[0] {
      if a[1..] != [] {
        SubsequenceOfTail(a[1..], b);
      }
    } else {
      SubsequenceDropFirst(a, b[1..]);
      if a[1..] != [] {
        SubsequenceOfTail(a[1..], b);
      }
    }
  }

  /** With an empty search box and an empty prefix box every entry is shown. */
  lemma {:induction false} EmptyFilterKeepsAll(items: seq<Json>)
    requires JNull !in items
    ensures ApplyFilter(items, "", "") == Some(items)
  {
    if items != [] {
      NoNullInTail(items);
      EmptyFilterKeepsAll(items[1..]);
      EmptyBoxesKeep(items[0]);
      FilterCons(items, "", "");
    }
  }

  /** Empty boxes let every entry through. */
  lemma EmptyBoxesKeep(it: Json)
    ensures Keep(it, "", "")
  {
    assert Query("") == [];
  }

  lemma NoNullInTail(items: seq<Json>)
    requires items != [] && JNull !in items
    ensures !items[0].JNull? && JNull !in items[1..]
    ensures [items[0]] + items[1..] == items
  {
    assert items == [items[0]] + items[1..];
  }

  /** The filter of a list with a head that is not `null`, after the filter of its tail. */
  lemma FilterCons(items: seq<Json>, search: string, prefix: string)
    requires items != [] && !items[0].JNull? && ApplyFilter(items[1..], search, prefix).Some?
    ensures var rest := ApplyFilter(items[1..], search, prefix).value;
      ApplyFilter(items, search, prefix) == Some(if Keep(items[0], search, prefix) then [items[0]] + rest else rest)
  {
  }

  /** Filtering the filtered list again changes nothing. */
  lemma {:induction false} FilterIdempotent(items: seq<Json>, search: string, prefix: string)
    requires JNull !in items
    ensures ApplyFilter(ApplyFilter(items, search, prefix).value, search, prefix) == ApplyFilter(items, search, prefix)
  {
    if items != [] {
      assert forall x :: x in items[1..] ==> x in items;
      FilterIdempotent(items[1..], search, prefix);
      var rest := ApplyFilter(items[1..], search, prefix).value;
      if Keep(items[0], search, prefix) {
        var r := [items[0]] + rest;
        assert r[1..] == rest;
      }
    }
  }

  /* ---------- the list between two filters ---------- */

  /**
   As written, `renderList(filtered)` makes the filtered list the new
   `exAll`, and the next filter starts from it: once a search has hidden an
   entry, clearing both boxes leaves it hidden.
   */
  lemma {:induction false} ClearedFilterStaysNarrowed(items: seq<Json>, search: string, prefix: string, it: Json)
    requires JNull !in items
    requires it in items && !Keep(it, search, prefix)
    ensures var exAll := ApplyFilter(items, search, prefix).value;
      && ApplyFilter(exAll, "", "") == Some(exAll)
      && it !in exAll
  {
    var exAll := ApplyFilter(items, search, prefix).value;
    EmptyFilterKeepsAll(exAll);
  }

  /** The list state with the evident intent: the loaded list is kept apart from the list shown. */
  datatype ListView = ListView(loaded: seq<Json>, shown: seq<Json>)

  /** `applyFilter`, corrected: it filters the loaded list and keeps it. */
  function FilterView(v: ListView, search: string, prefix: string): (r: Option<ListView>)
    ensures r.None? <==> JNull in v.loaded
    ensures r.Some? ==> r.value.loaded == v.loaded
    ensures r.Some? ==> forall it :: it in r.value.shown <==> it in v.loaded && Keep(it, search, prefix)
  {
    match ApplyFilter(v.loaded, search, prefix)
    case None => None
    case Some(shown) => Some(ListView(v.loaded, shown))
  }

  /** Corrected, clearing both boxes after any filter shows the whole loaded list again. */
  lemma ClearedFilterShowsAll(v: ListView, search: string, prefix: string)
    requires JNull !in v.loaded
    ensures FilterView(FilterView(v, search, prefix).value, "", "") == Some(ListView(v.loaded, v.loaded))
  {
    EmptyFilterKeepsAll(v.loaded);
  }

  /** Corrected, a filter's result does not depend on the filters before it. */
  lemma FilterViewForgetsEarlierFilters(v: ListView, s1: string, p1: string, s2: string, p2: string)
    requires JNull !in v.loaded
    ensures FilterView(FilterView(v, s1, p1).value, s2, p2) == FilterView(v, s2, p2)
  {
  }

  /* ---------- thumbUrl ---------- */

  /** The options of `thumbUrl` that the client passes; `None` is an undefined option. */
  datatype ThumbOpts = ThumbOpts(fit: Option<string>, quality: Option<string>, q: Option<string>,
                                 format: Option<string>, f: Option<string>)

  const DefaultSize: int := 180

  /** `THUMB_BASE`: the configured base without one trailing slash, or "" when none is configured. */
  function ThumbBase(config: Option<string>): (base: string)
    ensures config.None? || config.value == [] ==> base == []
    ensures config.Some? && config.value != [] && config.value[|config.value| - 1] == '/' ==> base + "/" == config.value
    ensures config.Some? && config.value != [] && config.value[|config.value| - 1] != '/' ==> base == config.value
  {
    if config.None? || config.value == [] then []
    else if config.value[|config.value| - 1] == '/' then
      var b := config.value[..|config.value| - 1];
      assert b + "/" == config.value;
      b
    else config.value
  }

  /** `encodeURIComponent` keeps these characters; it percent-encodes the UTF-8 bytes of every other. */
  predicate IsUnreserved(c: char) {
    || ('A' <= c <= 'Z') || ('a' <= c <= 'z') || ('0' <= c <= '9')
    || c == '-' || c == '_' || c == '.' || c == '!' || c == '~' || c == '*' || c == '\'' || c == '(' || c == ')'
  }

  /** The UTF-8 encoding of one Unicode scalar value, as byte values. */
  function Utf8(c: char): (bs: seq<int>)
    ensures 1 <= |bs| <= 4
    ensures forall i :: 0 <= i < |bs| ==> 0 <= bs[i] < 256
    ensures c as int < 0x80 <==> |bs| == 1
    ensures |bs| == 1 ==> bs[0] == c as int
    ensures |bs| > 1 ==> forall i :: 0 <= i < |bs| ==> bs[i] >= 0x80
  {
    var cp := c as int;
    if cp < 0x80 then [cp]
    else if cp < 0x800 then [0xC0 + cp / 64, 0x80 + cp % 64]
    else if cp < 0x10000 then [0xE0 + cp / 4096, 0x80 + (cp / 64) % 64, 0x80 + cp % 64]
    else [0xF0 + cp / 262144, 0x80 + (cp / 4096) % 64, 0x80 + (cp / 64) % 64, 0x80 + cp % 64]
  }

  function HexDigit(d: int): (c: char)
    requires 0 <= d < 16
    ensures ('0' <= c <= '9') || ('A' <= c <= 'F')
  {
    if d < 10 then ('0' as int + d) as char else ('A' as int + d - 10) as char
  }

  /** A character that can stand in a URL path without ending it: unreserved, a slash, or the `%` of an escape. */
  predicate PathSafe(c: char) {
    IsUnreserved(c) || c == '/' || c == '%'
  }

  /** `%XY` for each byte, upper-case hex. */
  function PercentBytes(bs: seq<int>): (r: string)
    requires forall i :: 0 <= i < |bs| ==> 0 <= bs[i] < 256
    ensures |r| == 3 * |bs|
    ensures forall i :: 0 <= i < |r| ==> PathSafe(r[i])
  {
    if bs == [] then [] else ['%', HexDigit(bs[0] / 16), HexDigit(bs[0] % 16)] + PercentBytes(bs[1..])
  }

  /** One character of `encodeURIComponent(key).replace(/%2F/g, "/")`: a slash stays a slash. */
  function PathChar(c: char): (r: string)
    ensures IsUnreserved(c) || c == '/' ==> r == [c]
    ensures forall i :: 0 <= i < |r| ==> PathSafe(r[i])
  {
    if IsUnreserved(c) || c == '/' then [c] else PercentBytes(Utf8(c))
  }

  /**
   `encodeURIComponent(key).replace(/%2F/g, "/")`. Every `%` of
   `encodeURIComponent`'s output starts the triple of one byte, and the
   triple `%2F` is the byte of `/` alone, so the replacement amounts to
   leaving slashes unencoded.
   */
  function EncodeKeyPath(key: string): (r: string)
    ensures |r| >= |key|
    ensures forall i :: 0 <= i < |r| ==> PathSafe(r[i])
  {
    if key == [] then []
    else
      var head := PathChar(key[0]);
      var tail := EncodeKeyPath(key[1..]);
      assert forall i :: |head| <= i < |head| + |tail| ==> (head + tail)[i] == tail[i - |head|];
      head + tail
  }

  /** A key of unreserved characters and slashes is put into the path as it is. */
  lemma {:induction false} EncodeKeyPathPlain(key: string)
    requires forall i :: 0 <= i < |key| ==> IsUnreserved(key[i]) || key[i] == '/'
    ensures EncodeKeyPath(key) == key
  {
    if key != [] {
      EncodeKeyPathPlain(key[1..]);
      assert key == [key[0]] + key[1..];
    }
  }

  /** `encodeURIComponent(s)` */
  function EncodeComponent(s: string): (r: string)
    ensures |r| >= |s|
  {
    if s == [] then [] else (if IsUnreserved(s[0]) then [s[0]] else PercentBytes(Utf8(s[0]))) + EncodeComponent(s[1..])
  }

  /** Characters `encodeURIComponent` keeps are kept, so a text of such characters comes back unchanged. */
  lemma {:induction false} EncodeUnreservedText(s: string)
    requires forall i :: 0 <= i < |s| ==> IsUnreserved(s[i])
    ensures EncodeComponent(s) == s
  {
    if s != [] {
      EncodeUnreservedText(s[1..]);
      assert s == [s[0]] + s[1..];
    }
  }

  /* ---------- reading an encoded key back ---------- */

  /** The value of a hexadecimal digit of either case; 0 for any other character. */
  function HexValue(c: char): int {
    if '0' <= c <= '9' then c as int - '0' as int
    else if 'A' <= c <= 'F' then c as int - 'A' as int + 10
    else if 'a' <= c <= 'f' then c as int - 'a' as int + 10
    else 0
  }

  lemma HexDigitValue(d: int)
    requires 0 <= d < 16
    ensures HexValue(HexDigit(d)) == d
  {
  }

  /** The `i`-th triple of `PercentBytes(bs)` is `%`, then the two hex digits of `bs[i]`. */
  lemma {:induction false} PercentBytesAt(bs: seq<int>, i: nat)
    requires forall j :: 0 <= j < |bs| ==> 0 <= bs[j] < 256
    requires i < |bs|
    ensures var r := PercentBytes(bs);
      r[3 * i] == '%' && r[3 * i + 1] == HexDigit(bs[i] / 16) && r[3 * i + 2] == HexDigit(bs[i] % 16)
    decreases i
  {
    if i > 0 {
      var head := ['%', HexDigit(bs[0] / 16), HexDigit(bs[0] % 16)];
      var tail := PercentBytes(bs[1..]);
      assert PercentBytes(bs) == head + tail;
      PercentBytesAt(bs[1..], i - 1);
      assert bs[1..][i - 1] == bs[i];
    }
  }

  /** The byte written by the `%XY` triple that starts at `s[i]`. */
  function ByteAt(s: string, i: nat): int
    requires i + 3 <= |s|
  {
    HexValue(s[i + 1]) * 16 + HexValue(s[i + 2])
  }

  /** The bytes of the `n` escapes at the front of `s`. */
  function ReadBytes(s: string, n: nat): (bs: seq<int>)
    requires 3 * n <= |s|
    ensures |bs| == n
  {
    seq(n, i requires 0 <= i < n => ByteAt(s, 3 * i))
  }

  /** How many bytes the UTF-8 sequence that starts with `lead` has. */
  function Utf8Width(lead: int): nat {
    if lead < 0x80 then 1 else if lead < 0xE0 then 2 else if lead < 0xF0 then 3 else 4
  }

  /** The code point a UTF-8 sequence of one to four bytes stands for. */
  function Utf8Value(bs: seq<int>): int
    requires 1 <= |bs| <= 4
  {
    if |bs| == 1 then bs[0]
    else if |bs| == 2 then (bs[0] - 0xC0) * 64 + (bs[1] - 0x80)
    else if |bs| == 3 then (bs[0] - 0xE0) * 4096 + (bs[1] - 0x80) * 64 + (bs[2] - 0x80)
    else (bs[0] - 0xF0) * 262144 + (bs[1] - 0x80) * 4096 + (bs[2] - 0x80) * 64 + (bs[3] - 0x80)
  }

  predicate IsScalar(cp: int) {
    0 <= cp < 0xD800 || 0xE000 <= cp < 0x110000
  }

  /**
   `decodeURIComponent` on the characters `EncodeKeyPath` and
   `EncodeComponent` write: an escape of a whole UTF-8 sequence becomes its
   character, and every other character, a stray `%` included, stands for
   itself.
   */
  function DecodeKeyPath(s: string): (k: string)
    decreases |s|
  {
    if s == [] then []
    else if s[0] == '%' && |s| >= 3 && 3 * Utf8Width(ByteAt(s, 0)) <= |s|
            && IsScalar(Utf8Value(ReadBytes(s, Utf8Width(ByteAt(s, 0))))) then
      var n := Utf8Width(ByteAt(s, 0));
      [Utf8Value(ReadBytes(s, n)) as char] + DecodeKeyPath(s[3 * n..])
    else [s[0]] + DecodeKeyPath(s[1..])
  }

  /** UTF-8 is read back: the lead byte gives the length, the bytes give the code point. */
  lemma Utf8Decodes(c: char)
    ensures Utf8Width(Utf8(c)[0]) == |Utf8(c)|
    ensures Utf8Value(Utf8(c)) == c as int
    ensures IsScalar(c as int)
  {
    var cp := c as int;
    if cp >= 0x10000 {
      assert (cp / 64) / 64 == cp / 4096;
      assert (cp / 4096) / 64 == cp / 262144;
    } else if cp >= 0x800 {
      assert (cp / 64) / 64 == cp / 4096;
    }
  }

  /** The escapes of one character's bytes are read back as that character. */
  lemma DecodeEscape(c: char, rest: string)
    ensures DecodeKeyPath(PercentBytes(Utf8(c)) + rest) == [c] + DecodeKeyPath(rest)
  {
    var bs := Utf8(c);
    var s := PercentBytes(bs) + rest;
    var n := |bs|;
    forall i | 0 <= i < n
      ensures ByteAt(s, 3 * i) == bs[i]
    {
      PercentBytesAt(bs, i);
      HexDigitValue(bs[i] / 16);
      HexDigitValue(bs[i] % 16);
    }
    assert ReadBytes(s, n) == bs;
    PercentBytesAt(bs, 0);
    Utf8Decodes(c);
    assert s[3 * n..] == rest;
  }

  lemma DecodePlain(c: char, rest: string)
    requires c != '%'
    ensures DecodeKeyPath([c] + rest) == [c] + DecodeKeyPath(rest)
  {
    assert ([c] + rest)[1..] == rest;
  }

  /** A stored key is read back from its place in the thumbnail path. */
  lemma {:induction false} EncodeKeyPathRoundTrip(key: string)
    ensures DecodeKeyPath(EncodeKeyPath(key)) == key
    decreases |key|
  {
    if key != [] {
      var c := key[0];
      assert EncodeKeyPath(key) == PathChar(c) + EncodeKeyPath(key[1..]);
      if IsUnreserved(c) || c == '/' {
        DecodePlain(c, EncodeKeyPath(key[1..]));
      } else {
        DecodeEscape(c, EncodeKeyPath(key[1..]));
      }
      EncodeKeyPathRoundTrip(key[1..]);
      assert key == [c] + key[1..];
    }
  }

  /** Two different keys never share a thumbnail path. */
  lemma EncodeKeyPathInjective(a: string, b: string)
    ensures EncodeKeyPath(a) == EncodeKeyPath(b) ==> a == b
  {
    EncodeKeyPathRoundTrip(a);
    EncodeKeyPathRoundTrip(b);
  }

  /** `decodeURIComponent(encodeURIComponent(s)) == s` */
  lemma {:induction false} EncodeComponentRoundTrip(s: string)
    ensures DecodeKeyPath(EncodeComponent(s)) == s
    decreases |s|
  {
    if s != [] {
      var c, tail := s[0], EncodeComponent(s[1..]);
      if IsUnreserved(c) {
        assert EncodeComponent(s) == [c] + tail;
        DecodePlain(c, tail);
      } else {
        assert EncodeComponent(s) == PercentBytes(Utf8(c)) + tail;
        DecodeEscape(c, tail);
      }
      EncodeComponentRoundTrip(s[1..]);
      assert s == [c] + s[1..];
    }
  }

  /** The size, fit, quality and format `thumbUrl` puts in the query, each with its default. */
  datatype ThumbParams = ThumbParams(size: string, fit: string, quality: string, format: string)

  function ChooseParams(size: Option<int>, opts: ThumbOpts): (t: ThumbParams)
    ensures size.Some? ==> t.size == IntToString(size.value)
    ensures opts.fit.Some? && opts.fit.value != [] ==> t.fit == opts.fit.value
    ensures opts.quality.Some? && opts.quality.value != [] ==> t.quality == opts.quality.value
    ensures (opts.quality.None? || opts.quality.value == []) && opts.q.Some? && opts.q.value != [] ==> t.quality == opts.q.value
    ensures opts.format.Some? && opts.format.value != [] ==> t.format == opts.format.value
    ensures (opts.format.None? || opts.format.value == []) && opts.f.Some? && opts.f.value != [] ==> t.format == opts.f.value
    ensures t.fit != [] && t.quality != [] && t.format != []
    ensures size.None? ==> t.size == "180"
    ensures opts.fit.None? || opts.fit.value == [] ==> t.fit == "cover"
    ensures (opts.quality.None? || opts.quality.value == []) && (opts.q.None? || opts.q.value == []) ==> t.quality == "85"
    ensures (opts.format.None? || opts.format.value == []) && (opts.f.None? || opts.f.value == []) ==> t.format == "webp"
  {
    Render180();
    ThumbParams(IntToString(if size.Some? then size.value else DefaultSize), OrElse(opts.fit, "cover"),
                OrElse(opts.quality, OrElse(opts.q, "85")), OrElse(opts.format, OrElse(opts.f, "webp")))
  }

  lemma Render180()
    ensures IntToString(180) == "180"
  {
    assert NatToString(1) == "1";
    assert NatToString(18) == "18";
  }

  /** With no size and no options the thumbnail is 180 by 180, cover, quality 85, webp. */
  lemma ThumbDefaults()
    ensures ChooseParams(None, ThumbOpts(None, None, None, None, None)) == ThumbParams("180", "cover", "85", "webp")
  {
  }

  /** `?w=<size>&h=<size>&fit=<fit>&q=<quality>&format=<format>`, fit and format URI-encoded. */
  function ThumbQuery(t: ThumbParams): (r: string)
    ensures r != [] && r[0] == '?'
    ensures StartsWith(r, "?w=" + t.size + "&h=" + t.size + "&fit=")
    ensures EndsWith(r, "&format=" + EncodeComponent(t.format))
  {
    var head := "?w=" + t.size + "&h=" + t.size + "&fit=";
    var tail := "&format=" + EncodeComponent(t.format);
    var r := head + EncodeComponent(t.fit) + "&q=" + t.quality + tail;
    assert r[..|head|] == head;
    assert r[|r| - |tail|..] == tail;
    r
  }

  /**
   `thumbUrl(key, size, opts)` when `key` is not an absolute URL.
   `None` stands for a key that parses as a URL: that branch rewrites the
   URL's query and is not modelled. `size` is `None` when the caller leaves
   it out.
   */
  function ThumbUrl(key: string, size: Option<int>, opts: ThumbOpts, base: string, p: Keys.Platform): (r: Option<string>)
    ensures key == [] ==> r == Some([])
    ensures key != [] ==> (r.None? <==> p.urlPathname(key).Some?)
    ensures key != [] && r.Some? && base == [] ==> r == Some(key)
    ensures key != [] && r.Some? && base != [] ==> r == Some(base + "/" + EncodeKeyPath(key) + ThumbQuery(ChooseParams(size, opts)))
  {
    if key == [] then Some([])
    else if p.urlPathname(key).Some? then None
    else if base == [] then Some(key)
    else Some(base + "/" + EncodeKeyPath(key) + ThumbQuery(ChooseParams(size, opts)))
  }

  /**
   With no size and no options, a key that is not a URL becomes
   `<base>/<encoded key>?w=180&h=180&fit=cover&q=85&format=webp`.
   */
  lemma DefaultThumbUrl(key: string, base: string, p: Keys.Platform)
    requires key != [] && base != [] && p.urlPathname(key).None?
    ensures ThumbUrl(key, None, ThumbOpts(None, None, None, None, None), base, p)
      == Some(base + "/" + EncodeKeyPath(key) + "?w=180&h=180&fit=cover&q=85&format=webp")
  {
    ThumbDefaults();
    DefaultQuery();
  }

  lemma DefaultQuery()
    ensures ThumbQuery(ThumbParams("180", "cover", "85", "webp")) == "?w=180&h=180&fit=cover&q=85&format=webp"
  {
    EncodeUnreservedText("cover");
    EncodeUnreservedText("webp");
    DefaultQueryText();
  }

  lemma DefaultQueryText()
    ensures "?w=" + "180" + "&h=" + "180" + "&fit=" + "cover" + "&q=" + "85" + ("&format=" + "webp")
      == "?w=180&h=180&fit=cover&q=85&format=webp"
  {
    assert "?w=" + "180" + "&h=" + "180" + "&fit=" == "?w=180&h=180&fit=";
    assert "?w=180&h=180&fit=" + "cover" + "&q=" + "85" == "?w=180&h=180&fit=cover&q=85";
  }

  /**
   Whatever the key holds, it cannot reach the query: with a base free of
   `?` and `#`, the first `?` of the thumbnail URL is the one that starts
   the thumbnail parameters, and no `#` comes before it.
   */
  lemma ThumbUrlQueryIntact(key: string, size: Option<int>, opts: ThumbOpts, base: string, p: Keys.Platform)
    requires key != [] && base != [] && p.urlPathname(key).None?
    requires '?' !in base && '#' !in base
    ensures var u := ThumbUrl(key, size, opts, base, p).value;
      var i := |base| + 1 + |EncodeKeyPath(key)|;
      && i < |u| && u[i] == '?'
      && '?' !in u[..i] && '#' !in u[..i]
      && u[i..] == ThumbQuery(ChooseParams(size, opts))
  {
    var enc := EncodeKeyPath(key);
    var query := ThumbQuery(ChooseParams(size, opts));
    assert ThumbUrl(key, size, opts, base, p) == Some(base + "/" + enc + query);
    PathThenQuery(base, enc, query);
  }

  lemma PathThenQuery(base: string, path: string, query: string)
    requires '?' !in base && '#' !in base
    requires forall i :: 0 <= i < |path| ==> PathSafe(path[i])
    requires query != [] && query[0] == '?'
    ensures var u := base + "/" + path + query;
      var i := |base| + 1 + |path|;
      && i < |u| && u[i] == '?'
      && '?' !in u[..i] && '#' !in u[..i]
      && u[i..] == query
  {
    var front := base + "/" + path;
    var u := front + query;
    assert u[..|front|] == front && u[|front|..] == query;
    forall j | 0 <= j < |front|
      ensures front[j] != '?' && front[j] != '#'
    {
      if j < |base| {
        assert front[j] == base[j];
      } else if j > |base| {
        assert front[j] == path[j - |base| - 1];
      }
    }
  }

  /* ---------- loadExisting ---------- */

  /** `/^\d+$/.test(k)` */
  predicate AllDigits(k: string) {
    k != [] && forall i :: 0 <= i < |k| ==> '0' <= k[i] <= '9'
  }

  /**
   The entry made for member `k` with value `v` of a keyed object: a string
   becomes `{name: k, url: v}`, an object or array is copied over
   `{name: k}` (`Object.assign`), anything else gives `{name: k}`.
   */
  function EntryOf(k: string, v: Json): (e: Json)
    ensures e.JObj?
    ensures v.JStr? ==> Get(e, "name") == Some(JStr(k)) && Get(e, "url") == Some(v)
    ensures v.JObj? ==> Get(e, "name") == (if Get(v, "name").Some? then Get(v, "name") else Some(JStr(k)))
    ensures !v.JStr? && !v.JObj? ==> Get(e, "name") == Some(JStr(k))
    ensures v.JObj? ==> forall n :: n != "name" ==> Get(e, n) == Get(v, n)
    ensures v.JArr? ==> forall i :: 0 <= i < |v.items| ==> Get(e, NatToString(i)) == Some(v.items[i])
  {
    var named := [("name", JStr(k))];
    match v
    case JStr(s) =>
      LookupAppend(named, [("url", JStr(s))], "name");
      LookupAppend(named, [("url", JStr(s))], "url");
      JObj(named + [("url", JStr(s))])
    case JObj(members) =>
      LookupAppend(named, members, "name");
      forall n | n != "name"
        ensures Get(JObj(named + members), n) == Get(v, n)
      {
        LookupAppend(named, members, n);
      }
      JObj(named + members)
    case JArr(items) =>
      var indexed := Indexed(items);
      assert forall i :: 0 <= i < |indexed| ==> indexed[i].0 != "name";
      LookupAppend(named, indexed, "name");
      IndexedNamesDistinct(items);
      forall i | 0 <= i < |items|
        ensures Get(JObj(named + indexed), NatToString(i)) == Some(items[i])
      {
        assert indexed[i].0 == NatToString(i);
        LookupAppend(named, indexed, NatToString(i));
        GetDistinct(indexed, i);
      }
      JObj(named + indexed)
    case _ => JObj(named)
  }

  /** An array's items as the members of an object: each under its index, written in decimal. */
  function Indexed(items: seq<Json>): (m: seq<(string, Json)>)
    ensures |m| == |items|
    ensures forall i :: 0 <= i < |m| ==> m[i] == (NatToString(i), items[i])
  {
    seq(|items|, i requires 0 <= i < |items| => (NatToString(i), items[i]))
  }

  /** Different indices are written differently. */
  lemma IndexedNamesDistinct(items: seq<Json>)
    ensures forall i, j :: 0 <= i < j < |Indexed(items)| ==> Indexed(items)[i].0 != Indexed(items)[j].0
  {
    forall i, j | 0 <= i < j < |items|
      ensures NatToString(i) != NatToString(j)
    {
      NatToStringRoundTrip(i);
      NatToStringRoundTrip(j);
    }
  }

  /** The entries of a keyed object, one per member name in `Object.keys` order. */
  function KeyedEntries(data: Json): (r: seq<Json>)
    requires data.JObj?
    ensures |r| == |MemberNames(data.members)|
    ensures forall i :: 0 <= i < |r| ==>
      var k := MemberNames(data.members)[i];
      Get(data, k).Some? && r[i] == EntryOf(k, Get(data, k).value)
  {
    var names := MemberNames(data.members);
    forall i | 0 <= i < |names|
      ensures Get(data, names[i]).Some?
    {
      assert names[i] in names;
      var j :| 0 <= j < |data.members| && data.members[j].0 == names[i];
    }
    seq(|names|, i requires 0 <= i < |names| => EntryOf(names[i], Get(data, names[i]).value))
  }

  /** `Array.isArray(v)` for a possibly undefined value. */
  predicate IsArray(v: Option<Json>) {
    v.Some? && v.value.JArr?
  }

  /**
   The list `loadExisting` renders for the fetched `data`: the array
   itself, its `items` array, its `files` array, or the entries of a
   keyed object. `None` stands for the TypeError of reading a member of
   `null`. The `data.items || []` fallback is never an array at that point,
   and `renderList` shows a non-array as an empty list.
   */
  function LoadExisting(data: Json): (r: Option<seq<Json>>)
    ensures r.None? <==> data.JNull?
    ensures data.JArr? ==> r == Some(data.items)
    ensures !data.JArr? && IsArray(Get(data, "items")) ==> r == Some(Get(data, "items").value.items)
    ensures !data.JArr? && !IsArray(Get(data, "items")) && IsArray(Get(data, "files")) ==>
      r == Some(Get(data, "files").value.items)
    ensures data.JObj? && !IsArray(Get(data, "items")) && !IsArray(Get(data, "files")) ==>
      if data.members != [] && forall i :: 0 <= i < |data.members| ==> !AllDigits(data.members[i].0)
      then r == Some(KeyedEntries(data))
      else r == Some([])
    ensures !data.JNull? && !data.JArr? && !data.JObj? ==> r == Some([])
  {
    if data.JArr? then Some(data.items)
    else if data.JNull? then None
    else if IsArray(Get(data, "items")) then Some(Get(data, "items").value.items)
    else if IsArray(Get(data, "files")) then Some(Get(data, "files").value.items)
    else if data.JObj? then
      var names := MemberNames(data.members);
      KeyedNamesOf(data.members);
      if names != [] && forall i :: 0 <= i < |names| ==> !AllDigits(names[i]) then Some(KeyedEntries(data))
      else Some([])
    else Some([])
  }

  /** The test on `Object.keys(data)` holds exactly when the test on the members does. */
  lemma KeyedNamesOf(members: seq<(string, Json)>)
    ensures var names := MemberNames(members);
      && (names != [] <==> members != [])
      && ((forall i :: 0 <= i < |names| ==> !AllDigits(names[i])) <==>
          (forall i :: 0 <= i < |members| ==> !AllDigits(members[i].0)))
  {
    var names := MemberNames(members);
    if members != [] {
      assert members[0].0 in names;
    }
    if exists i :: 0 <= i < |members| && AllDigits(members[i].0) {
      var i :| 0 <= i < |members| && AllDigits(members[i].0);
      assert members[i].0 in names;
    }
    if exists i :: 0 <= i < |names| && AllDigits(names[i]) {
      var i :| 0 <= i < |names| && AllDigits(names[i]);
      assert names[i] in names;
    }
  }

  /**
   `loadExisting` with the evident intent: the manifest the worker writes
   keeps its entries under `icons`, so an `icons` array is read too, after
   `items` and `files`.
   */
  function LoadExistingFixed(data: Json): (r: Option<seq<Json>>)
    ensures r.None? <==> data.JNull?
    ensures !IsArray(Get(data, "icons")) ==> r == LoadExisting(data)
    ensures !data.JArr? && !IsArray(Get(data, "items")) && !IsArray(Get(data, "files")) && IsArray(Get(data, "icons")) ==>
      r == Some(Get(data, "icons").value.items)
  {
    if data.JArr? then Some(data.items)
    else if data.JNull? then None
    else if IsArray(Get(data, "items")) then Some(Get(data, "items").value.items)
    else if IsArray(Get(data, "files")) then Some(Get(data, "files").value.items)
    else if IsArray(Get(data, "icons")) then Some(Get(data, "icons").value.items)
    else LoadExisting(data)
  }

  /* ---------- the manifest as the client receives it ---------- */

  function IconJson(ic: Catalog.Icon): Json {
    JObj([("name", JStr(ic.name)), ("url", JStr(ic.url))])
  }

  /** The member names of the manifest document, in the order `saveIconsJson` writes them. */
  const ManifestFields: seq<string> := ["title", "desc", "updatedAt", "count", "icons"]

  /** `JSON.parse(JSON.stringify(payload))` for the payload of `saveIconsJson`. */
  function ManifestJson(m: Catalog.Manifest): (j: Json)
    ensures j.JObj? && |j.members| == |ManifestFields|
    ensures forall i :: 0 <= i < |ManifestFields| ==> j.members[i].0 == ManifestFields[i]
  {
    JObj([("title", JStr(m.title)), ("desc", JStr(m.desc)), ("updatedAt", JStr(m.updatedAt)), ("count", JNum(m.count)),
          ("icons", JArr(seq(|m.icons|, i requires 0 <= i < |m.icons| => IconJson(m.icons[i]))))])
  }

  lemma ManifestMembers(m: Catalog.Manifest)
    ensures var j := ManifestJson(m);
      && (forall a, b :: 0 <= a < b < |j.members| ==> j.members[a].0 != j.members[b].0)
      && (forall a :: 0 <= a < |j.members| ==> !j.members[a].1.JObj?)
      && MemberNames(j.members) == ManifestFields
      && Get(j, "items").None? && Get(j, "files").None?
  {
    var j := ManifestJson(m);
    FieldsDistinct();
    MemberNamesOfDistinct(j.members);
    assert MemberNames(j.members) == ManifestFields;
    FieldsOtherThan("items");
    FieldsOtherThan("files");
  }

  /**
   The first letters of the manifest's member names. They are pairwise
   different, which is the cheapest way to show the names are.
   */
  const FieldInitials: string := "tduci"

  lemma FieldInitialsOf()
    ensures forall i :: 0 <= i < |ManifestFields| ==> ManifestFields[i] != [] && ManifestFields[i][0] == FieldInitials[i]
  {
  }

  lemma FieldsDistinct()
    ensures forall a, b :: 0 <= a < b < |ManifestFields| ==> ManifestFields[a] != ManifestFields[b]
  {
    FieldInitialsOf();
    forall a, b | 0 <= a < b < |ManifestFields|
      ensures ManifestFields[a] != ManifestFields[b]
    {
      assert FieldInitials[a] != FieldInitials[b];
    }
  }

  /** Neither `items` nor `files` is a member of the manifest. */
  lemma FieldsOtherThan(name: string)
    requires name == "items" || name == "files"
    ensures forall i :: 0 <= i < |ManifestFields| ==> ManifestFields[i] != name
  {
    FieldInitialsOf();
    forall i | 0 <= i < |ManifestFields|
      ensures ManifestFields[i] != name
    {
      if i == 4 {
        assert ManifestFields[4][1] == 'c' && name[1] == (if name == "items" then 't' else 'i');
      } else {
        assert FieldInitials[i] != name[0];
      }
    }
  }

  lemma FieldsNotNumeric()
    ensures forall i :: 0 <= i < |ManifestFields| ==> !AllDigits(ManifestFields[i])
  {
    forall i | 0 <= i < |ManifestFields|
      ensures !AllDigits(ManifestFields[i])
    {
      var k := ManifestFields[i];
      if i == 0 { assert k[0] == 't'; }
      else if i == 1 { assert k[0] == 'd'; }
      else if i == 2 { assert k[0] == 'u'; }
      else if i == 3 { assert k[0] == 'c'; }
      else { assert k[0] == 'i'; }
    }
  }

  /** A keyed object whose values are not objects becomes one `{name: k, ...}` entry per member, in order. */
  lemma KeyedEntryNames(data: Json)
    requires data.JObj?
    requires forall a, b :: 0 <= a < b < |data.members| ==> data.members[a].0 != data.members[b].0
    requires forall a :: 0 <= a < |data.members| ==> !data.members[a].1.JObj?
    ensures |KeyedEntries(data)| == |data.members|
    ensures forall i :: 0 <= i < |data.members| ==> Get(KeyedEntries(data)[i], "name") == Some(JStr(data.members[i].0))
  {
    MemberNamesOfDistinct(data.members);
    forall i | 0 <= i < |data.members|
      ensures Get(KeyedEntries(data)[i], "name") == Some(JStr(data.members[i].0))
    {
      GetDistinct(data.members, i);
    }
  }

  /**
   A keyed object with distinct, not all-digit names, no `items` or `files`
   array and no object values is shown as one entry per member, named
   after it, in member order.
   */
  lemma LoadExistingOfKeyed(data: Json)
    requires data.JObj? && data.members != []
    requires forall a, b :: 0 <= a < b < |data.members| ==> data.members[a].0 != data.members[b].0
    requires forall a :: 0 <= a < |data.members| ==> !data.members[a].1.JObj? && !AllDigits(data.members[a].0)
    requires !IsArray(Get(data, "items")) && !IsArray(Get(data, "files"))
    ensures var r := LoadExisting(data);
      && r.Some? && |r.value| == |data.members|
      && forall i :: 0 <= i < |data.members| ==> Get(r.value[i], "name") == Some(JStr(data.members[i].0))
  {
    assert LoadExisting(data) == Some(KeyedEntries(data));
    KeyedEntryNames(data);
  }

  /**
   As written, the client shows the worker's own manifest as five entries
   named after its fields, `title` to `icons`, and none of its icons.
   */
  lemma LoadExistingShowsManifestFields(m: Catalog.Manifest)
    ensures var r := LoadExisting(ManifestJson(m));
      && r.Some? && |r.value| == |ManifestFields|
      && forall i :: 0 <= i < |ManifestFields| ==> Get(r.value[i], "name") == Some(JStr(ManifestFields[i]))
  {
    var j := ManifestJson(m);
    ManifestMembers(m);
    FieldsNotNumeric();
    assert LoadExisting(j) == Some(KeyedEntries(j));
    KeyedEntryNames(j);
  }

  /** Corrected, the client shows exactly the manifest's icons, in order. */
  lemma LoadExistingFixedReadsIcons(m: Catalog.Manifest)
    ensures LoadExistingFixed(ManifestJson(m)) == Some(seq(|m.icons|, i requires 0 <= i < |m.icons| => IconJson(m.icons[i])))
  {
    var j := ManifestJson(m);
    ManifestMembers(m);
    GetDistinct(j.members, 4);
  }
}

=== FILE: gateway.dfy ===
/**
 The read-through gateway (worker/r2-icon-api.js): a GET of a path serves
 the bucket object whose key is that path without its leading slashes,
 the manifest for the bare root, with a content type taken from the
 object's metadata or guessed from the key's extension.
 */
module Gateway {
  import opened Strings
  import Keys
  import Catalog
  import Store

  /** An object as the gateway reads it: its bytes and its stored `httpMetadata.contentType`. */
  datatype Stored = Stored(bytes: seq<Store.Byte>, contentType: Option<string>)

  type Objects = map<string, Stored>

  datatype GatewayResponse =
    /** 204 with no body: the answer to a preflight. */
    | Preflight
    /** 404 `Not found`. */
    | NotFound
    /** 200 with the object's bytes and the three content headers. */
    | Served(body: seq<Store.Byte>, contentType: string, contentLength: string, cacheControl: string)

  function Status(r: GatewayResponse): int {
    match r
    case Preflight => 204
    case NotFound => 404
    case Served(_, _, _, _) => 200
  }

  const JsonType: string := "application/json; charset=utf-8"
  const OctetStream: string := "application/octet-stream"
  const GatewayCacheControl: string := "public, max-age=60"

  /* ---------- key derivation ---------- */

  /** The key for a URL path: the path without its leading slashes, or the manifest key when nothing is left. */
  function KeyFromPath(pathname: string): (key: string)
    ensures key != [] && key[0] != '/'
    ensures (forall i :: 0 <= i < |pathname| ==> pathname[i] == '/') ==> key == Catalog.IconsKey
    ensures (exists i :: 0 <= i < |pathname| && pathname[i] != '/') ==>
      && |key| <= |pathname|
      && key == pathname[|pathname| - |key|..]
      && forall i :: 0 <= i < |pathname| - |key| ==> pathname[i] == '/'
  {
    var stripped := Keys.StripLeadingSlashes(pathname);
    if stripped == [] then Catalog.IconsKey
    else
      assert pathname[|pathname| - |stripped|] != '/';
      stripped
  }

  /** A path of one slash and a key that does not start with a slash names that key. */
  lemma KeyOfSlashPath(k: string)
    requires k != [] && k[0] != '/'
    ensures KeyFromPath("/" + k) == k
  {
    assert ("/" + k)[1..] == k;
  }

  /** The root path, and any path of slashes only, names the manifest. */
  lemma RootIsManifest()
    ensures KeyFromPath("/") == Catalog.IconsKey
    ensures KeyFromPath("") == Catalog.IconsKey
  {
  }

  /* ---------- content types ---------- */

  /** The extension table of `detectContentType`, in the order it is tried. */
  const ContentTypes: seq<(string, string)> := [
    (".json", JsonType),
    (".png", "image/png"),
    (".jpg", "image/jpeg"),
    (".jpeg", "image/jpeg"),
    (".svg", "image/svg+xml"),
    (".webp", "image/webp")]

  /** `detectContentType(key)`: chosen by the lower-cased key's ending. */
  function DetectContentType(key: string): (ct: string)
    ensures forall i :: 0 <= i < |ContentTypes| && EndsWith(ToLower(key), ContentTypes[i].0) ==> ct == ContentTypes[i].1
    ensures ct == OctetStream <==> forall i :: 0 <= i < |ContentTypes| ==> !EndsWith(ToLower(key), ContentTypes[i].0)
  {
    var lower := ToLower(key);
    assert forall i :: 0 <= i < |ContentTypes| && EndsWith(lower, ContentTypes[i].0) ==> TypeByEnding(lower) == ContentTypes[i].1 by {
      forall i | 0 <= i < |ContentTypes| && EndsWith(lower, ContentTypes[i].0)
        ensures TypeByEnding(lower) == ContentTypes[i].1
      {
        EndingByTable(lower, i);
      }
    }
    EndingDefault(lower);
    TypeByEnding(lower)
  }

  /** The chain of `endsWith` tests of `detectContentType`, on the lower-cased key. */
  function TypeByEnding(lower: string): (ct: string)
  {
    if EndsWith(lower, ".json") then JsonType
    else if EndsWith(lower, ".png") then "image/png"
    else if EndsWith(lower, ".jpg") || EndsWith(lower, ".jpeg") then "image/jpeg"
    else if EndsWith(lower, ".svg") then "image/svg+xml"
    else if EndsWith(lower, ".webp") then "image/webp"
    else OctetStream
  }

  /** Two endings of one string: the shorter is an ending of the longer. */
  lemma EndingOfEnding(s: string, a: string, b: string)
    requires EndsWith(s, a) && EndsWith(s, b) && |a| <= |b|
    ensures EndsWith(b, a)
  {
    assert b[|b| - |a|..] == s[|s| - |a|..];
  }

  /** No key ends with two different extensions of the table. */
  lemma TableEndingsExclusive(s: string, i: nat, j: nat)
    requires i < |ContentTypes| && j < |ContentTypes| && i != j
    requires EndsWith(s, ContentTypes[i].0)
    ensures !EndsWith(s, ContentTypes[j].0)
  {
    var a := ContentTypes[i].0;
    var b := ContentTypes[j].0;
    if EndsWith(s, b) {
      if |a| <= |b| {
        EndingOfEnding(s, a, b);
      } else {
        EndingOfEnding(s, b, a);
      }
    }
  }

  /** A lower-cased key ending with the `i`-th extension of the table gets its type. */
  lemma EndingByTable(lower: string, i: nat)
    requires i < |ContentTypes| && EndsWith(lower, ContentTypes[i].0)
    ensures TypeByEnding(lower) == ContentTypes[i].1
  {
    if i != 0 { TableEndingsExclusive(lower, i, 0); }
    if i != 1 { TableEndingsExclusive(lower, i, 1); }
    if i != 2 { TableEndingsExclusive(lower, i, 2); }
    if i != 3 { TableEndingsExclusive(lower, i, 3); }
    if i != 4 { TableEndingsExclusive(lower, i, 4); }
  }

  /** A lower-cased key with none of the table's extensions gets the octet-stream type, and only such a key. */
  lemma EndingDefault(lower: string)
    ensures TypeByEnding(lower) == OctetStream <==>
      forall i :: 0 <= i < |ContentTypes| ==> !EndsWith(lower, ContentTypes[i].0)
  {
    if TypeByEnding(lower) == OctetStream {
      forall i | 0 <= i < |ContentTypes|
        ensures !EndsWith(lower, ContentTypes[i].0)
      {
        if EndsWith(lower, ContentTypes[i].0) {
          EndingByTable(lower, i);
        }
      }
    } else {
      EndingMatched(lower);
    }
  }

  lemma EndingMatched(lower: string)
    requires TypeByEnding(lower) != OctetStream
    ensures exists i :: 0 <= i < |ContentTypes| && EndsWith(lower, ContentTypes[i].0)
  {
    var i := MatchedEnding(lower);
  }

  /** The table entry whose extension ended the chain of tests. */
  lemma MatchedEnding(lower: string) returns (i: nat)
    requires TypeByEnding(lower) != OctetStream
    ensures i < |ContentTypes| && EndsWith(lower, ContentTypes[i].0)
  {
    i := if EndsWith(lower, ".json") then 0
      else if EndsWith(lower, ".png") then 1
      else if EndsWith(lower, ".jpg") then 2
      else if EndsWith(lower, ".jpeg") then 3
      else if EndsWith(lower, ".svg") then 4
      else 5;
    assert i == 5 ==> EndsWith(lower, ".webp");
    assert ContentTypes[i].0 == [".json", ".png", ".jpg", ".jpeg", ".svg", ".webp"][i];
  }

  /** The manifest key is served with the same type the admin worker stores it with. */
  lemma ManifestDetectedAsJson()
    ensures DetectContentType(Catalog.IconsKey) == Store.ManifestContentType
  {
    var lower := ToLower(Catalog.IconsKey);
    assert lower == Catalog.IconsKey;
    assert EndsWith(lower, ".json");
  }

  /** `httpMetadata.contentType` when it is a non-empty string, else the guess from the key. */
  function ContentTypeFor(key: string, obj: Stored): (ct: string)
    ensures obj.contentType.Some? && obj.contentType.value != [] ==> ct == obj.contentType.value
    ensures obj.contentType.None? || obj.contentType.value == [] ==> ct == DetectContentType(key)
  {
    OrElse(obj.contentType, DetectContentType(key))
  }

  /* ---------- the request ---------- */

  /** `handle(request)` for a request with method `verb` and URL path `pathname`. */
  function HandleGateway(objects: Objects, verb: string, pathname: string): (r: GatewayResponse)
    ensures verb == "OPTIONS" <==> r == Preflight
    ensures verb != "OPTIONS" ==> (r == NotFound <==> KeyFromPath(pathname) !in objects)
    ensures r.Served? ==>
      var key := KeyFromPath(pathname);
      && key in objects
      && r.body == objects[key].bytes
      && r.contentType == ContentTypeFor(key, objects[key])
      && (forall i :: 0 <= i < |r.contentLength| ==> '0' <= r.contentLength[i] <= '9')
      && DecimalValue(r.contentLength) == |r.body|
      && r.cacheControl == GatewayCacheControl
  {
    if verb == "OPTIONS" then Preflight
    else
      var key := KeyFromPath(pathname);
      if key !in objects then NotFound
      else
        var obj := objects[key];
        NatToStringRoundTrip(|obj.bytes|);
        Served(obj.bytes, ContentTypeFor(key, obj), NatToString(|obj.bytes|), GatewayCacheControl)
  }

  /** Every method but OPTIONS is a read: HEAD and POST are answered as GET is. */
  lemma MethodsOtherThanOptionsRead(objects: Objects, m1: string, m2: string, pathname: string)
    requires m1 != "OPTIONS" && m2 != "OPTIONS"
    ensures HandleGateway(objects, m1, pathname) == HandleGateway(objects, m2, pathname)
  {
  }
}

=== FILE: icon_api.dfy ===
/**
 The request handlers of the admin worker (worker/icon-api.js): DELETE,
 the `refresh-icons` and `rename` actions, and the multipart upload. Each
 handler is a function from the bucket and the request to the new bucket
 and the response. A request that succeeds performs its object step and
 then `saveIconsJson(await rebuildIcons())`; a request that is refused
 leaves the bucket as it was.
 */
module IconApi {
  import opened Strings
  import opened Keys
  import opened Catalog
  import opened Store

  /** An uploaded file: its name, its bytes and its MIME type (`file.type`, possibly empty). */
  datatype FilePart = FilePart(name: string, bytes: seq<Byte>, mime: string)

  /** The value of a multipart field: text, or a file. */
  datatype FormValue = Text(text: string) | File(part: FilePart)

  datatype Request =
    /** `DELETE ?key=...`, with the query value as `URLSearchParams` decodes it. */
    | DeleteRequest(key: Option<string>)
    /** A non-multipart `POST`: its `action`, `oldKey` and `key` form fields. */
    | ActionRequest(action: Option<string>, oldKey: Option<string>, key: Option<string>)
    /** A multipart `POST`: its `file`, `key` and `overwrite` form fields. */
    | UploadRequest(file: Option<FormValue>, key: Option<string>, overwrite: Option<string>)

  /** The JSON body of a response. */
  datatype Reply =
    | Deleted(deleted: string, remaining: int)
    | Refreshed(count: int)
    | Renamed(from: string, to: string, count: int)
    | Uploaded(keyUsed: string, url: string, totalIcons: int)
    | Failed(error: string, key: Option<string>)

  datatype Response = Response(status: int, reply: Reply)

  /** The bucket after the request, and the response sent. */
  datatype Outcome = Outcome(bucket: Bucket, response: Response)

  const OctetStream: string := "application/octet-stream"

  /** `ALLOW_EXT.join(", ")` */
  const AllowList: string := ".png, .jpg, .jpeg, .gif, .webp, .svg, .ico, .bmp"

  function Refuse(b: Bucket, status: int, error: string, key: Option<string>): (o: Outcome)
    ensures o.bucket == b && o.response.status == status && o.response.reply.Failed?
  {
    Outcome(b, Response(status, Failed(error, key)))
  }

  /* ---------- the closing step ---------- */

  /** Two buckets that agree outside the manifest agree on every other key. */
  lemma KeptApartFromManifest(a: Bucket, b: Bucket, k: string)
    requires a - {IconsKey} == b - {IconsKey} && k != IconsKey
    ensures k in a <==> k in b
    ensures k in a ==> a[k] == b[k]
  {
    assert k in a <==> k in a - {IconsKey};
    assert k in b <==> k in b - {IconsKey};
    if k in a {
      assert a[k] == (a - {IconsKey})[k];
    }
  }

  lemma RemoveTwice(b: Bucket, k: string, j: string)
    ensures (b - {k}) - {j} == b - {k, j}
  {
  }

  /**
   `saveIconsJson(await rebuildIcons())` after the object step of a
   request, with the new bucket and the count the response reports.
   */
  function Commit(mutated: Bucket, now: string): (r: (Bucket, int))
    ensures CatalogConsistent(r.0)
    ensures r.0 - {IconsKey} == mutated - {IconsKey}
    ensures r.1 == |ImageKeys(r.0)|
    ensures forall k :: k != IconsKey ==> (k in r.0 <==> k in mutated)
    ensures forall k :: k != IconsKey && k in mutated ==> r.0[k] == mutated[k]
  {
    var (after, saved) := RebuildAndSave(mutated, now);
    forall k | k != IconsKey
      ensures (k in after <==> k in mutated) && (k in mutated ==> after[k] == mutated[k])
    {
      KeptApartFromManifest(after, mutated, k);
    }
    (after, saved.count)
  }

  /* ---------- DELETE ---------- */

  /** The DELETE handler once the `key` parameter is materialised. */
  function DeleteKey(b: Bucket, key: string, now: string): (o: Outcome)
    ensures o.response.status == 400 <==> key == [] || key == IconsKey
    ensures o.response.status == 404 <==> key != [] && key != IconsKey && key !in b
    ensures o.response.status == 200 <==> key != [] && key != IconsKey && key in b
    ensures o.response.status != 200 ==> o.bucket == b
    ensures o.response.status == 200 ==> key !in o.bucket
    ensures o.response.status == 200 ==> o.bucket - {IconsKey} == b - {key, IconsKey}
    ensures o.response.status == 200 ==> CatalogConsistent(o.bucket)
    ensures o.response.status == 200 ==> o.response.reply == Deleted(key, |ImageKeys(o.bucket)|)
  {
    if key == [] then Refuse(b, 400, "Missing key", None)
    else if key == IconsKey then Refuse(b, 400, "icons.json cannot be deleted", None)
    else if key !in b then Refuse(b, 404, "File not found", Some(key))
    else DeleteExisting(b, key, now)
  }

  /** The success path of DELETE: remove the object, then rebuild and save. */
  function DeleteExisting(b: Bucket, key: string, now: string): (o: Outcome)
    requires key != IconsKey
    ensures o.response.status == 200
    ensures key !in o.bucket
    ensures o.bucket - {IconsKey} == b - {key, IconsKey}
    ensures CatalogConsistent(o.bucket)
    ensures o.response.reply == Deleted(key, |ImageKeys(o.bucket)|)
  {
    var removed := b - {key};
    var (after, count) := Commit(removed, now);
    RemoveTwice(b, key, IconsKey);
    Outcome(after, Response(200, Deleted(key, count)))
  }

  /** `DELETE ?key=...` */
  function HandleDelete(b: Bucket, keyParam: Option<string>, p: Platform, now: string): (o: Outcome)
    ensures keyParam.None? ==> o.response.status == 400 && o.bucket == b
    ensures var k := MaterializeKey(keyParam, p);
      o.response.status == 200 <==> k != [] && k != IconsKey && k in b
    ensures var k := MaterializeKey(keyParam, p);
      o.response.status == 200 ==> k !in o.bucket && o.bucket - {IconsKey} == b - {k, IconsKey} && CatalogConsistent(o.bucket)
  {
    DeleteKey(b, MaterializeKey(keyParam, p), now)
  }

  /* ---------- refresh-icons ---------- */

  function HandleRefresh(b: Bucket, now: string): (o: Outcome)
    ensures o.response.status == 200
    ensures o.bucket - {IconsKey} == b - {IconsKey}
    ensures CatalogConsistent(o.bucket)
    ensures o.response.reply == Refreshed(|ImageKeys(b)|)
  {
    var (after, count) := Commit(b, now);
    ImageKeysIgnoreManifest(after, b);
    Outcome(after, Response(200, Refreshed(count)))
  }

  /* ---------- rename ---------- */

  /** `obj.httpMetadata?.contentType || "application/octet-stream"` */
  function ContentTypeOr(ct: Option<string>): (r: string)
    ensures r != []
    ensures ct.Some? && ct.value != [] ==> r == ct.value
  {
    OrElse(ct, OctetStream)
  }

  /** The object written under the new key: the same body, the old content type or the default. */
  function Copied(obj: Obj): (c: Obj)
    ensures c.body == obj.body
    ensures c.contentType == Some(ContentTypeOr(obj.contentType))
    ensures c.cacheControl.None?
  {
    Obj(obj.body, Some(ContentTypeOr(obj.contentType)), None)
  }

  /** The 400/404 checks of the rename action, shared by both versions below. */
  function RenameRefusal(b: Bucket, oldKey: string, newKey: string): (r: Option<(int, string)>)
    ensures r.Some? && r.value.0 == 400 <==> oldKey == [] || newKey == [] || oldKey == IconsKey || newKey == IconsKey
    ensures r.Some? && r.value.0 == 404 <==> oldKey != [] && newKey != [] && oldKey != IconsKey && newKey != IconsKey && oldKey !in b
    ensures r.None? <==> oldKey != [] && newKey != [] && oldKey != IconsKey && newKey != IconsKey && oldKey in b
  {
    if oldKey == [] || newKey == [] then Some((400, "Missing oldKey/key"))
    else if oldKey == IconsKey || newKey == IconsKey then Some((400, "icons.json cannot be renamed"))
    else if oldKey !in b then Some((404, "File not found"))
    else None
  }

  /**
   The rename action on materialised keys as the worker performs it:
   `put(newKey, copy)`, then `delete(oldKey)`. When both keys are the
   same, the delete removes the object that was just written.
   */
  function RenameKeysAsWritten(b: Bucket, oldKey: string, newKey: string, now: string): (o: Outcome)
    ensures o.response.status == 400 <==> oldKey == [] || newKey == [] || oldKey == IconsKey || newKey == IconsKey
    ensures o.response.status == 404 <==> oldKey != [] && newKey != [] && oldKey != IconsKey && newKey != IconsKey && oldKey !in b
    ensures o.response.status != 200 ==> o.bucket == b
    ensures o.response.status == 200 ==>
      && oldKey in b && oldKey !in o.bucket
      && o.bucket - {IconsKey} == b[newKey := Copied(b[oldKey])] - {oldKey, IconsKey}
      && CatalogConsistent(o.bucket)
    ensures o.response.status == 200 ==> o.response.reply == Renamed(oldKey, newKey, |ImageKeys(o.bucket)|)
  {
    match RenameRefusal(b, oldKey, newKey)
    case Some((status, error)) => Refuse(b, status, error, if status == 404 then Some(oldKey) else None)
    case None => PutThenDelete(b, oldKey, newKey, now)
  }

  /** The success path of the rename as written. */
  function PutThenDelete(b: Bucket, oldKey: string, newKey: string, now: string): (o: Outcome)
    requires oldKey in b && oldKey != IconsKey
    ensures o.response.status == 200
    ensures oldKey !in o.bucket
    ensures o.bucket - {IconsKey} == b[newKey := Copied(b[oldKey])] - {oldKey, IconsKey}
    ensures CatalogConsistent(o.bucket)
    ensures o.response.reply == Renamed(oldKey, newKey, |ImageKeys(o.bucket)|)
  {
    var moved := b[newKey := Copied(b[oldKey])] - {oldKey};
    var (after, count) := Commit(moved, now);
    RemoveTwice(b[newKey := Copied(b[oldKey])], oldKey, IconsKey);
    Outcome(after, Response(200, Renamed(oldKey, newKey, count)))
  }

  /**
   The rename action on materialised keys with the evident intent: a key
   renamed onto itself stays in place; otherwise as written.
   */
  function RenameKeys(b: Bucket, oldKey: string, newKey: string, now: string): (o: Outcome)
    ensures o.response.status == 400 <==> oldKey == [] || newKey == [] || oldKey == IconsKey || newKey == IconsKey
    ensures o.response.status == 404 <==> oldKey != [] && newKey != [] && oldKey != IconsKey && newKey != IconsKey && oldKey !in b
    ensures o.response.status != 200 ==> o.bucket == b
    ensures o.response.status == 200 ==> oldKey in b && newKey in o.bucket && o.bucket[newKey].body == b[oldKey].body
    ensures o.response.status == 200 && oldKey != newKey ==>
      && oldKey !in o.bucket
      && o.bucket - {IconsKey} == b[newKey := Copied(b[oldKey])] - {oldKey, IconsKey}
    ensures o.response.status == 200 && oldKey == newKey ==> o.bucket - {IconsKey} == b - {IconsKey}
    ensures o.response.status == 200 ==> CatalogConsistent(o.bucket)
    ensures o.response.status == 200 ==> o.response.reply == Renamed(oldKey, newKey, |ImageKeys(o.bucket)|)
  {
    match RenameRefusal(b, oldKey, newKey)
    case Some((status, error)) => Refuse(b, status, error, if status == 404 then Some(oldKey) else None)
    case None => MoveExisting(b, oldKey, newKey, now)
  }

  /** The success path of the corrected rename. */
  function MoveExisting(b: Bucket, oldKey: string, newKey: string, now: string): (o: Outcome)
    requires oldKey in b && oldKey != IconsKey && newKey != IconsKey
    ensures o.response.status == 200
    ensures newKey in o.bucket && o.bucket[newKey].body == b[oldKey].body
    ensures oldKey != newKey ==>
      && oldKey !in o.bucket
      && o.bucket - {IconsKey} == b[newKey := Copied(b[oldKey])] - {oldKey, IconsKey}
    ensures oldKey == newKey ==> o.bucket - {IconsKey} == b - {IconsKey}
    ensures CatalogConsistent(o.bucket)
    ensures o.response.reply == Renamed(oldKey, newKey, |ImageKeys(o.bucket)|)
  {
    var moved := Moved(b, oldKey, newKey);
    var (after, count) := Commit(moved, now);
    RemoveTwice(b[newKey := Copied(b[oldKey])], oldKey, IconsKey);
    Outcome(after, Response(200, Renamed(oldKey, newKey, count)))
  }

  /** The bucket after the object step of the corrected rename. */
  function Moved(b: Bucket, oldKey: string, newKey: string): (m: Bucket)
    requires oldKey in b
    ensures newKey in m && m[newKey].body == b[oldKey].body
    ensures oldKey == newKey ==> m == b
    ensures oldKey != newKey ==> m == b[newKey := Copied(b[oldKey])] - {oldKey}
  {
    if oldKey == newKey then b else b[newKey := Copied(b[oldKey])] - {oldKey}
  }

  /** `action=rename` as written. */
  function RenameAsWritten(b: Bucket, oldParam: Option<string>, keyParam: Option<string>, p: Platform, now: string): (o: Outcome)
    ensures oldParam.None? || keyParam.None? ==> o.response.status == 400 && o.bucket == b
    ensures var oldKey := MaterializeKey(oldParam, p);
      o.response.status == 200 ==> oldKey in b && oldKey !in o.bucket && CatalogConsistent(o.bucket)
  {
    RenameKeysAsWritten(b, MaterializeKey(oldParam, p), MaterializeKey(keyParam, p), now)
  }

  /** `action=rename`, corrected. */
  function Rename(b: Bucket, oldParam: Option<string>, keyParam: Option<string>, p: Platform, now: string): (o: Outcome)
    ensures oldParam.None? || keyParam.None? ==> o.response.status == 400 && o.bucket == b
    ensures var oldKey, newKey := MaterializeKey(oldParam, p), MaterializeKey(keyParam, p);
      o.response.status == 200 ==> oldKey in b && newKey in o.bucket && o.bucket[newKey].body == b[oldKey].body && CatalogConsistent(o.bucket)
  {
    RenameKeys(b, MaterializeKey(oldParam, p), MaterializeKey(keyParam, p), now)
  }

  /** As written, renaming a stored key onto itself answers 200 and deletes the object. */
  lemma RenameOntoItselfDeletes(b: Bucket, k: string, now: string)
    requires k != [] && k != IconsKey && k in b
    ensures RenameKeysAsWritten(b, k, k, now).response.status == 200
    ensures k !in RenameKeysAsWritten(b, k, k, now).bucket
  {
  }

  /** Corrected, the same rename keeps the object untouched. */
  lemma RenameOntoItselfKeeps(b: Bucket, k: string, now: string)
    requires k != [] && k != IconsKey && k in b
    ensures RenameKeys(b, k, k, now).response.status == 200
    ensures k in RenameKeys(b, k, k, now).bucket && RenameKeys(b, k, k, now).bucket[k] == b[k]
  {
    var o := RenameKeys(b, k, k, now);
    assert k in o.bucket - {IconsKey} && k in b - {IconsKey};
  }

  /** On two different keys the two versions agree. */
  lemma RenameAgreesOnDistinctKeys(b: Bucket, oldKey: string, newKey: string, now: string)
    requires oldKey != newKey
    ensures RenameKeys(b, oldKey, newKey, now) == RenameKeysAsWritten(b, oldKey, newKey, now)
  {
  }

  /* ---------- upload ---------- */

  /** `(form.get("overwrite") || "true").toString() === "true"`: a missing or empty field, or the exact text `true`. */
  function AllowOverwrite(overwrite: Option<string>): (allow: bool)
    ensures allow <==> overwrite.None? || overwrite.value == [] || overwrite.value == "true"
  {
    OrElse(overwrite, "true") == "true"
  }

  /**
   The key used when overwriting is refused and `key` is taken: the random
   `suffix` is inserted, after an underscore, before the last dot.
   */
  function Disambiguate(key: string, suffix: string): (r: string)
    ensures |r| == |key| + 1 + |suffix|
    ensures r != key
    ensures exists i :: 0 <= i <= |key| && r == key[..i] + "_" + suffix + key[i..] && InsertionPoint(key, i)
  {
    match LastIndexOf(key, '.')
    case Some(dot) =>
      assert InsertionPoint(key, dot);
      key[..dot] + "_" + suffix + key[dot..]
    case None =>
      assert key == key[..|key|] && key[|key|..] == [];
      assert InsertionPoint(key, |key|);
      key + "_" + suffix
  }

  /** Where the suffix goes: at the last dot, or at the end of a key without a dot. */
  predicate InsertionPoint(key: string, i: int) {
    || (0 <= i < |key| && key[i] == '.' && '.' !in key[i + 1..])
    || (i == |key| && '.' !in key)
  }

  /** The disambiguated key keeps the extension. */
  lemma DisambiguateKeepsExt(key: string, suffix: string)
    requires GetExt(key) != []
    ensures GetExt(Disambiguate(key, suffix)) == GetExt(key)
  {
    var dot := LastIndexOf(key, '.').value;
    var ext := key[dot..];
    var r := Disambiguate(key, suffix);
    var d := |r| - |ext|;
    assert r[d..] == ext;
    forall j | d < j < |r|
      ensures r[j] != '.'
    {
      assert r[j] == ext[j - d] == key[dot + 1..][j - d - 1];
    }
    LastDotAt(r, d);
  }

  /** A key whose last character is `n` cannot end in an allowed extension. */
  lemma ManifestExtNotAllowed(k: string)
    requires k != [] && k[|k| - 1] == 'n'
    ensures GetExt(k) !in AllowedExts
  {
    var e := GetExt(k);
    if e != [] {
      var dot := LastIndexOf(k, '.').value;
      assert e[|e| - 1] == LowerChar(k[|k| - 1]);
    }
  }

  /** The disambiguated key of an image key is an image key too. */
  lemma DisambiguateIsImage(key: string, suffix: string)
    requires IsImageKey(key)
    ensures IsImageKey(Disambiguate(key, suffix))
  {
    DisambiguateKeepsExt(key, suffix);
    var r := Disambiguate(key, suffix);
    if r == IconsKey {
      ManifestExtNotAllowed(r);
    }
  }

  /** The uploaded object: the file's bytes and its type, or the default type. */
  function UploadedObject(f: FilePart): (obj: Obj)
    ensures obj.body == Blob(f.bytes)
    ensures f.mime != [] ==> obj.contentType == Some(f.mime)
    ensures f.mime == [] ==> obj.contentType == Some(OctetStream)
  {
    Obj(Blob(f.bytes), Some(OrElse(Some(f.mime), OctetStream)), None)
  }

  /** The key an accepted upload writes. */
  function KeyUsed(b: Bucket, reqKey: string, overwrite: Option<string>, suffix: string): (used: string)
    requires IsImageKey(reqKey)
    ensures IsImageKey(used)
    ensures AllowOverwrite(overwrite) || reqKey !in b ==> used == reqKey
    ensures !AllowOverwrite(overwrite) && reqKey in b ==> used != reqKey && GetExt(used) == GetExt(reqKey)
  {
    if !AllowOverwrite(overwrite) && reqKey in b then
      DisambiguateKeepsExt(reqKey, suffix);
      DisambiguateIsImage(reqKey, suffix);
      Disambiguate(reqKey, suffix)
    else reqKey
  }

  /**
   The upload of a file under the materialised key `reqKey`. `suffix`
   stands for the five base-36 characters the worker draws from
   `Math.random()`.
   */
  function UploadFile(b: Bucket, f: FilePart, reqKey: string, overwrite: Option<string>, suffix: string, now: string): (o: Outcome)
    ensures o.response.status == 400 <==> !IsImageKey(reqKey)
    ensures o.response.status == 200 <==> IsImageKey(reqKey)
    ensures o.response.status != 200 ==> o.bucket == b
    ensures o.response.status == 200 ==>
      && IsImageKey(reqKey)
      && var used := KeyUsed(b, reqKey, overwrite, suffix);
      && o.bucket - {IconsKey} == b[used := UploadedObject(f)] - {IconsKey}
      && o.response.reply == Uploaded(used, MakePublicUrl(used), |ImageKeys(o.bucket)|)
    ensures o.response.status == 200 && !AllowOverwrite(overwrite) && reqKey in b ==>
      reqKey in o.bucket && o.bucket[reqKey] == b[reqKey]
    ensures o.response.status == 200 ==> CatalogConsistent(o.bucket)
  {
    if reqKey == [] then Refuse(b, 400, "Bad key", None)
    else if !IsImageKey(reqKey) then Refuse(b, 400, "Unsupported file type (allow: " + AllowList + ")", None)
    else WriteUpload(b, f, reqKey, KeyUsed(b, reqKey, overwrite, suffix), now)
  }

  /** The success path of the upload: write the file under `used`, then rebuild and save. */
  function WriteUpload(b: Bucket, f: FilePart, reqKey: string, used: string, now: string): (o: Outcome)
    requires reqKey != IconsKey && used != IconsKey
    ensures o.response.status == 200
    ensures o.bucket - {IconsKey} == b[used := UploadedObject(f)] - {IconsKey}
    ensures o.response.reply == Uploaded(used, MakePublicUrl(used), |ImageKeys(o.bucket)|)
    ensures used != reqKey && reqKey in b ==> reqKey in o.bucket && o.bucket[reqKey] == b[reqKey]
    ensures CatalogConsistent(o.bucket)
  {
    var written := b[used := UploadedObject(f)];
    var (after, count) := Commit(written, now);
    Outcome(after, Response(200, Uploaded(used, MakePublicUrl(used), count)))
  }

  /** A multipart `POST`: a missing file (or a text value in its place) is refused first. */
  function HandleUpload(b: Bucket, file: Option<FormValue>, keyField: Option<string>, overwrite: Option<string>,
                        suffix: string, p: Platform, now: string): (o: Outcome)
    ensures file.None? || file.value.Text? ==> o == Refuse(b, 400, "Missing file", None)
  {
    if file.None? || file.value.Text? then Refuse(b, 400, "Missing file", None)
    else
      var f := file.value.part;
      UploadFile(b, f, MaterializeKey(Some(OrElse(keyField, f.name)), p), overwrite, suffix, now)
  }

  /* ---------- dispatch ---------- */

  /** The worker's `fetch` for DELETE and POST, as written. */
  function Handle(b: Bucket, req: Request, suffix: string, p: Platform, now: string): (o: Outcome)
    ensures o.response.status in {200, 400, 404}
    ensures o.response.status != 200 ==> o.bucket == b
    ensures o.response.status == 200 ==> CatalogConsistent(o.bucket)
  {
    match req
    case DeleteRequest(key) => HandleDelete(b, key, p, now)
    case ActionRequest(action, oldKey, key) =>
      if action == Some("refresh-icons") then HandleRefresh(b, now)
      else if action == Some("rename") then RenameAsWritten(b, oldKey, key, p, now)
      else Refuse(b, 400, "Unknown POST action", None)
    case UploadRequest(file, key, overwrite) => HandleUpload(b, file, key, overwrite, suffix, p, now)
  }

  /** The dispatcher with the corrected rename. */
  function HandleFixed(b: Bucket, req: Request, suffix: string, p: Platform, now: string): (o: Outcome)
    ensures o.response.status in {200, 400, 404}
    ensures o.response.status != 200 ==> o.bucket == b
    ensures o.response.status == 200 ==> CatalogConsistent(o.bucket)
  {
    match req
    case ActionRequest(action, oldKey, key) =>
      if action == Some("rename") then Rename(b, oldKey, key, p, now)
      else Handle(b, req, suffix, p, now)
    case _ => Handle(b, req, suffix, p, now)
  }

  /** A rename whose two keys materialise to the same key: the one request the two dispatchers answer differently. */
  predicate RenameOntoItself(req: Request, p: Platform) {
    && req.ActionRequest? && req.action == Some("rename")
    && MaterializeKey(req.oldKey, p) == MaterializeKey(req.key, p)
  }

  /**
   The catalog invariant holds after every request once it holds before:
   a successful request re-derives it, a refused one leaves the bucket
   alone.
   */
  lemma HandlePreservesCatalog(b: Bucket, req: Request, suffix: string, p: Platform, now: string)
    requires CatalogConsistent(b)
    ensures CatalogConsistent(Handle(b, req, suffix, p, now).bucket)
  {
  }

  /** The same holds with the corrected rename. */
  lemma HandleFixedPreservesCatalog(b: Bucket, req: Request, suffix: string, p: Platform, now: string)
    requires CatalogConsistent(b)
    ensures CatalogConsistent(HandleFixed(b, req, suffix, p, now).bucket)
  {
  }

  /** The corrected dispatcher answers every request as the worker does, except a rename onto the same key. */
  lemma HandleFixedAgrees(b: Bucket, req: Request, suffix: string, p: Platform, now: string)
    requires !RenameOntoItself(req, p)
    ensures HandleFixed(b, req, suffix, p, now) == Handle(b, req, suffix, p, now)
  {
    if req.ActionRequest? && req.action == Some("rename") {
      RenameAgreesOnDistinctKeys(b, MaterializeKey(req.oldKey, p), MaterializeKey(req.key, p), now);
    }
  }

  /** As written, a rename of a stored key onto itself answers 200 and loses the object; corrected, it keeps it. */
  lemma HandleRenameOntoItself(b: Bucket, k: string, suffix: string, p: Platform, now: string)
    requires MaterializeKey(Some(k), p) == k && k != [] && k != IconsKey && k in b
    ensures var req := ActionRequest(Some("rename"), Some(k), Some(k));
      && Handle(b, req, suffix, p, now).response.status == 200
      && k !in Handle(b, req, suffix, p, now).bucket
      && HandleFixed(b, req, suffix, p, now).bucket[k] == b[k]
  {
    var req := ActionRequest(Some("rename"), Some(k), Some(k));
    RenameDispatch(b, req, suffix, p, now);
    RenameOntoItselfDeletes(b, k, now);
    RenameOntoItselfKeeps(b, k, now);
  }

  /**
   Which handler answers which request: DELETE goes to the delete handler
   on the materialised `key`, `refresh-icons` to the refresh, an unknown
   action is refused, and an upload with a file goes to the upload on the
   materialised `key || file.name`.
   */
  lemma Dispatch(b: Bucket, req: Request, suffix: string, p: Platform, now: string)
    ensures req.DeleteRequest? ==> Handle(b, req, suffix, p, now) == DeleteKey(b, MaterializeKey(req.key, p), now)
    ensures req.ActionRequest? && req.action == Some("refresh-icons") ==> Handle(b, req, suffix, p, now) == HandleRefresh(b, now)
    ensures req.ActionRequest? && req.action != Some("refresh-icons") && req.action != Some("rename") ==>
      Handle(b, req, suffix, p, now) == Refuse(b, 400, "Unknown POST action", None)
    ensures req.UploadRequest? && (req.file.None? || req.file.value.Text?) ==>
      Handle(b, req, suffix, p, now) == Refuse(b, 400, "Missing file", None)
    ensures req.UploadRequest? && req.file.Some? && req.file.value.File? ==>
      var f := req.file.value.part;
      Handle(b, req, suffix, p, now) == UploadFile(b, f, MaterializeKey(Some(OrElse(req.key, f.name)), p), req.overwrite, suffix, now)
  {
  }

  /** A rename request goes to the rename as written, or to the corrected one. */
  lemma RenameDispatch(b: Bucket, req: Request, suffix: string, p: Platform, now: string)
    requires req.ActionRequest? && req.action == Some("rename")
    ensures Handle(b, req, suffix, p, now) == RenameKeysAsWritten(b, MaterializeKey(req.oldKey, p), MaterializeKey(req.key, p), now)
    ensures HandleFixed(b, req, suffix, p, now) == RenameKeys(b, MaterializeKey(req.oldKey, p), MaterializeKey(req.key, p), now)
  {
  }
}

=== FILE: json.dfy ===
/**
 JSON values as the browser client sees them after `JSON.parse`, with the
 three JavaScript operations the client applies to them: truthiness,
 property access and conversion to a string.
 */
module Json {
  import opened Strings

  /** A parsed JSON value. Numbers are integers here; an object keeps its members in source order. */
  datatype Json =
    | JNull
    | JBool(b: bool)
    | JNum(n: int)
    | JStr(s: string)
    | JArr(items: seq<Json>)
    | JObj(members: seq<(string, Json)>)

  /** JavaScript truthiness. */
  predicate Truthy(v: Json) {
    match v
    case JNull => false
    case JBool(b) => b
    case JNum(n) => n != 0
    case JStr(s) => s != []
    case JArr(_) => true
    case JObj(_) => true
  }

  /** The last member of `members` named `name` is at `i`. */
  predicate LastAt(members: seq<(string, Json)>, name: string, i: int) {
    0 <= i < |members| && members[i].0 == name && forall j :: i < j < |members| ==> members[j].0 != name
  }

  /**
   `v[name]` on a non-null value: an object's member (the last one of that
   name, as `JSON.parse` keeps it); `None` (undefined) for an absent member
   and for every other kind of value.
   */
  function Get(v: Json, name: string): (r: Option<Json>)
    ensures !v.JObj? ==> r.None?
    ensures v.JObj? ==> (r.None? <==> forall i :: 0 <= i < |v.members| ==> v.members[i].0 != name)
    ensures v.JObj? && r.Some? ==> exists i :: LastAt(v.members, name, i) && v.members[i].1 == r.value
  {
    if v.JObj? then
      LookupFindsLast(v.members, name);
      Lookup(v.members, name)
    else None
  }

  /** The value of the last member named `name`, searching from the end. */
  function Lookup(members: seq<(string, Json)>, name: string): Option<Json>
  {
    if members == [] then None
    else if members[|members| - 1].0 == name then Some(members[|members| - 1].1)
    else Lookup(members[..|members| - 1], name)
  }

  /** `Lookup` finds nothing exactly when no member has the name, and otherwise the last one. */
  lemma LookupFindsLast(members: seq<(string, Json)>, name: string)
    ensures Lookup(members, name).None? <==> forall i :: 0 <= i < |members| ==> members[i].0 != name
    ensures Lookup(members, name).Some? ==>
      exists i :: LastAt(members, name, i) && members[i].1 == Lookup(members, name).value
  {
    LookupNone(members, name);
    if Lookup(members, name).Some? {
      var i := LookupIndex(members, name);
    }
  }

  lemma {:induction false} LookupNone(members: seq<(string, Json)>, name: string)
    ensures Lookup(members, name).None? <==> forall i :: 0 <= i < |members| ==> members[i].0 != name
  {
    if members != [] {
      var last := |members| - 1;
      if members[last].0 != name {
        var init := members[..last];
        LookupNone(init, name);
        assert forall i :: 0 <= i < last ==> init[i] == members[i];
      }
    }
  }

  lemma {:induction false} LookupIndex(members: seq<(string, Json)>, name: string) returns (i: nat)
    requires Lookup(members, name).Some?
    ensures LastAt(members, name, i) && members[i].1 == Lookup(members, name).value
  {
    var last := |members| - 1;
    if members[last].0 == name {
      i := last;
    } else {
      var init := members[..last];
      i := LookupIndex(init, name);
      assert init[i] == members[i];
      assert forall j :: i < j < last ==> init[j] == members[j];
    }
  }

  /** Later members without the name leave the lookup to the earlier ones. */
  lemma {:induction false} LookupAppendAbsent(a: seq<(string, Json)>, b: seq<(string, Json)>, name: string)
    requires forall i :: 0 <= i < |b| ==> b[i].0 != name
    ensures Lookup(a + b, name) == Lookup(a, name)
    decreases |b|
  {
    if b == [] {
      assert a + b == a;
    } else {
      var last := |b| - 1;
      assert (a + b)[..|a + b| - 1] == a + b[..last];
      assert (a + b)[|a + b| - 1] == b[last];
      assert forall i :: 0 <= i < last ==> b[..last][i] == b[i];
      LookupAppendAbsent(a, b[..last], name);
    }
  }

  /** Later members with the name decide the lookup alone. */
  lemma {:induction false} LookupAppendPresent(a: seq<(string, Json)>, b: seq<(string, Json)>, name: string)
    requires exists i :: 0 <= i < |b| && b[i].0 == name
    ensures Lookup(a + b, name) == Lookup(b, name)
    decreases |b|
  {
    var last := |b| - 1;
    assert (a + b)[|a + b| - 1] == b[last];
    if b[last].0 != name {
      assert (a + b)[..|a + b| - 1] == a + b[..last];
      var j :| 0 <= j < |b| && b[j].0 == name;
      assert b[..last][j] == b[j];
      LookupAppendPresent(a, b[..last], name);
    }
  }

  /** A member list followed by more members: the later members win. */
  lemma LookupAppend(a: seq<(string, Json)>, b: seq<(string, Json)>, name: string)
    ensures (forall i :: 0 <= i < |b| ==> b[i].0 != name) ==> Lookup(a + b, name) == Lookup(a, name)
    ensures (exists i :: 0 <= i < |b| && b[i].0 == name) ==> Lookup(a + b, name) == Lookup(b, name)
  {
    if forall i :: 0 <= i < |b| ==> b[i].0 != name {
      LookupAppendAbsent(a, b, name);
    } else {
      LookupAppendPresent(a, b, name);
    }
  }

  /** The first truthy value among `a`, `b`, `c`: `a || b || c` on possibly undefined values. */
  function FirstTruthy(a: Option<Json>, b: Option<Json>, c: Option<Json>): (r: Option<Json>)
    ensures r.Some? ==> Truthy(r.value) && (r == a || r == b || r == c)
    ensures a.Some? && Truthy(a.value) ==> r == a
    ensures r.None? <==> (a.None? || !Truthy(a.value)) && (b.None? || !Truthy(b.value)) && (c.None? || !Truthy(c.value))
  {
    if a.Some? && Truthy(a.value) then a
    else if b.Some? && Truthy(b.value) then b
    else if c.Some? && Truthy(c.value) then c
    else None
  }

  /** The elements' strings joined with commas, as `Array.prototype.join` does. */
  function Join(parts: seq<string>): (r: string)
    ensures |parts| == 1 ==> r == parts[0]
  {
    if parts == [] then []
    else if |parts| == 1 then parts[0]
    else parts[0] + "," + Join(parts[1..])
  }

  /** `String(v)` / `v.toString()`. */
  function ToJsString(v: Json): (r: string)
    ensures v.JStr? ==> r == v.s
  {
    match v
    case JNull => "null"
    case JBool(b) => if b then "true" else "false"
    case JNum(n) => IntToString(n)
    case JStr(s) => s
    case JArr(items) => Join(seq(|items|, i requires 0 <= i < |items| => if items[i].JNull? then [] else ToJsString(items[i])))
    case JObj(_) => "[object Object]"
  }

  /**
   The member names of an object, each once, at its first occurrence. This
   is the order of `Object.keys` for an object none of whose names is an
   array index (such as `"0"` or `"17"`); `Object.keys` lists those first,
   in ascending numeric order.
   */
  function MemberNames(members: seq<(string, Json)>): (r: seq<string>)
    ensures forall k :: k in r <==> exists i :: 0 <= i < |members| && members[i].0 == k
    ensures forall i, j :: 0 <= i < j < |r| ==> r[i] != r[j]
  {
    if members == [] then []
    else
      var last := |members| - 1;
      var rest := MemberNames(members[..last]);
      assert forall i :: 0 <= i < last ==> members[..last][i] == members[i];
      if members[last].0 in rest then rest else rest + [members[last].0]
  }

  /** Members whose names are pairwise different are listed in their own order. */
  lemma {:induction false} MemberNamesOfDistinct(members: seq<(string, Json)>)
    requires forall i, j :: 0 <= i < j < |members| ==> members[i].0 != members[j].0
    ensures MemberNames(members) == seq(|members|, i requires 0 <= i < |members| => members[i].0)
  {
    if members != [] {
      var last := |members| - 1;
      MemberNamesOfDistinct(members[..last]);
      assert members[last].0 !in MemberNames(members[..last]);
    }
  }

  /** With pairwise different names, each member is found under its own name. */
  lemma GetDistinct(members: seq<(string, Json)>, i: nat)
    requires forall i, j :: 0 <= i < j < |members| ==> members[i].0 != members[j].0
    requires i < |members|
    ensures Get(JObj(members), members[i].0) == Some(members[i].1)
  {
    LookupNone(members, members[i].0);
    var j := LookupIndex(members, members[i].0);
  }
}

=== FILE: keys.dfy ===
/**
 Key canonicalisation of the admin worker (`normalizeKey` and
 `materializeKey` in worker/icon-api.js).

 A store key is canonical when it has no backslash, no leading slash and
 no two consecutive slashes. `materializeKey` accepts what a client sends
 (a key, a percent-encoded key or a full public URL) and turns it into such
 a key. The URL parser and `decodeURIComponent` are not modelled: they are
 the two functions of a `Platform`, each of which may fail (`None`).
 */
module Keys {
  import opened Strings

  /** The runtime's URL parser (the `pathname` of `new URL(s)`) and `decodeURIComponent`. */
  datatype Platform = Platform(
    urlPathname: string -> Option<string>,
    decodeUriComponent: string -> Option<string>)

  /* ---------- canonical form ---------- */

  predicate NoDoubleSlash(k: string) {
    forall i :: 0 <= i < |k| - 1 ==> !(k[i] == '/' && k[i + 1] == '/')
  }

  predicate IsNormalized(k: string) {
    && '\\' !in k
    && (|k| == 0 || k[0] != '/')
    && NoDoubleSlash(k)
  }

  /** The characters of `k` that are not path separators of either kind. */
  function Letters(k: string): (r: string)
    ensures '/' !in r && '\\' !in r
    ensures |r| <= |k|
  {
    if k == [] then []
    else if k[0] == '/' || k[0] == '\\' then Letters(k[1..])
    else [k[0]] + Letters(k[1..])
  }

  /* ---------- the three rewriting steps of normalizeKey ---------- */

  /** `k.replace(/\\/g, "/")` */
  function BackslashesToSlashes(k: string): (r: string)
    ensures |r| == |k|
    ensures '\\' !in r
    ensures forall i :: 0 <= i < |k| ==> r[i] == (if k[i] == '\\' then '/' else k[i])
  {
    if k == [] then [] else [if k[0] == '\\' then '/' else k[0]] + BackslashesToSlashes(k[1..])
  }

  /** `k.replace(/^\/+/, "")` */
  function StripLeadingSlashes(k: string): (r: string)
    ensures |r| <= |k| && r == k[|k| - |r|..]
    ensures forall i :: 0 <= i < |k| - |r| ==> k[i] == '/'
    ensures |r| == 0 || r[0] != '/'
  {
    if k != [] && k[0] == '/' then StripLeadingSlashes(k[1..]) else k
  }

  /** `k.replace(/\/{2,}/g, "/")`: every run of slashes becomes a single slash. */
  function CollapseSlashes(k: string): (r: string)
    ensures NoDoubleSlash(r)
    ensures |r| <= |k|
    ensures |k| > 0 ==> |r| > 0 && r[0] == k[0]
    ensures '\\' !in k ==> '\\' !in r
  {
    if |k| < 2 then k
    else if k[0] == '/' && k[1] == '/' then CollapseSlashes(k[1..])
    else
      var rest := CollapseSlashes(k[1..]);
      [k[0]] + rest
  }

  /** `normalizeKey`: backslashes become slashes, leading slashes go, slash runs collapse. */
  function NormalizeKey(k: string): (r: string)
    ensures IsNormalized(r)
  {
    CollapseSlashes(StripLeadingSlashes(BackslashesToSlashes(k)))
  }

  /* ---------- properties of normalizeKey ---------- */

  lemma {:induction false} CollapseFixedPoint(k: string)
    requires NoDoubleSlash(k)
    ensures CollapseSlashes(k) == k
    decreases |k|
  {
    if |k| >= 2 {
      CollapseFixedPoint(k[1..]);
    }
  }

  /** A canonical key is left unchanged by `normalizeKey`. */
  lemma NormalizeFixedPoint(k: string)
    requires IsNormalized(k)
    ensures NormalizeKey(k) == k
  {
    assert BackslashesToSlashes(k) == k;
    CollapseFixedPoint(k);
  }

  /** `normalizeKey` is idempotent. */
  lemma NormalizeIdempotent(k: string)
    ensures NormalizeKey(NormalizeKey(k)) == NormalizeKey(k)
  {
    NormalizeFixedPoint(NormalizeKey(k));
  }

  /* ---------- the rewriting laws normalizeKey obeys ---------- */

  lemma BackslashesAppend(x: string, y: string)
    ensures BackslashesToSlashes(x + y) == BackslashesToSlashes(x) + BackslashesToSlashes(y)
  {
    var l, r := BackslashesToSlashes(x + y), BackslashesToSlashes(x) + BackslashesToSlashes(y);
    forall i | 0 <= i < |l|
      ensures l[i] == r[i]
    {
      if i < |x| {
        assert (x + y)[i] == x[i];
      } else {
        assert (x + y)[i] == y[i - |x|];
      }
    }
  }

  /** Leading slashes of `x + z` go with those of `x`, and reach into `z` only when `x` is all slashes. */
  lemma {:induction false} StripAppend(x: string, z: string)
    ensures StripLeadingSlashes(x + z)
      == if StripLeadingSlashes(x) == [] then StripLeadingSlashes(z) else StripLeadingSlashes(x) + z
    decreases |x|
  {
    if x == [] {
      assert x + z == z;
    } else {
      assert (x + z)[0] == x[0];
      if x[0] == '/' {
        assert (x + z)[1..] == x[1..] + z;
        StripAppend(x[1..], z);
      }
    }
  }

  /** A double slash collapses exactly as a single one does, wherever it stands. */
  lemma {:induction false} CollapseDoubleSlash(x: string, y: string)
    ensures CollapseSlashes(x + "//" + y) == CollapseSlashes(x + "/" + y)
    decreases |x|
  {
    var k, k' := x + "//" + y, x + "/" + y;
    if x == [] {
      assert k[1..] == k';
    } else {
      assert k[0] == x[0] && k'[0] == x[0];
      assert k[1] == k'[1] by {
        if |x| == 1 {
          assert k[1] == '/' && k'[1] == '/';
        } else {
          assert k[1] == x[1] && k'[1] == x[1];
        }
      }
      assert k[1..] == x[1..] + "//" + y;
      assert k'[1..] == x[1..] + "/" + y;
      CollapseDoubleSlash(x[1..], y);
    }
  }

  /** A backslash in a key counts as a slash. */
  lemma NormalizeBackslashIsSlash(a: string, b: string)
    ensures NormalizeKey(a + "\\" + b) == NormalizeKey(a + "/" + b)
  {
    var l, r := BackslashesToSlashes(a + "\\" + b), BackslashesToSlashes(a + "/" + b);
    forall i | 0 <= i < |l|
      ensures l[i] == r[i]
    {
      if i < |a| {
        assert (a + "\\" + b)[i] == a[i] == (a + "/" + b)[i];
      } else if i > |a| {
        assert (a + "\\" + b)[i] == b[i - |a| - 1] == (a + "/" + b)[i];
      }
    }
    assert l == r;
  }

  /** A leading slash is dropped. */
  lemma NormalizeLeadingSlash(b: string)
    ensures NormalizeKey("/" + b) == NormalizeKey(b)
  {
    BackslashesAppend("/", b);
    assert BackslashesToSlashes("/") == "/";
    StripAppend("/", BackslashesToSlashes(b));
  }

  /** Backslash conversion leaves a separator free of backslashes in place. */
  lemma BackslashesAround(a: string, sep: string, b: string)
    requires '\\' !in sep
    ensures BackslashesToSlashes(a + sep + b) == BackslashesToSlashes(a) + sep + BackslashesToSlashes(b)
  {
    var l, r := BackslashesToSlashes(a + sep + b), BackslashesToSlashes(a) + sep + BackslashesToSlashes(b);
    forall i | 0 <= i < |l|
      ensures l[i] == r[i]
    {
      if i < |a| {
        assert (a + sep + b)[i] == a[i];
      } else if i < |a| + |sep| {
        assert (a + sep + b)[i] == sep[i - |a|] == r[i];
      } else {
        assert (a + sep + b)[i] == b[i - |a| - |sep|];
      }
    }
  }

  /** `StripAppend` with a separator between the two parts. */
  lemma {:induction false} StripAround(x: string, sep: string, y: string)
    ensures StripLeadingSlashes(x + sep + y)
      == if StripLeadingSlashes(x) == [] then StripLeadingSlashes(sep + y) else StripLeadingSlashes(x) + sep + y
    decreases |x|
  {
    if x == [] {
      assert x + sep + y == sep + y;
    } else {
      assert (x + sep + y)[0] == x[0];
      if x[0] == '/' {
        assert (x + sep + y)[1..] == x[1..] + sep + y;
        StripAround(x[1..], sep, y);
      }
    }
  }

  lemma StripDoubleSlashPrefix(y: string)
    ensures StripLeadingSlashes("//" + y) == StripLeadingSlashes("/" + y)
  {
    assert ("//" + y)[1..] == "/" + y;
  }

  /** Once backslashes are gone, stripping and collapsing treat a double slash as a single one. */
  lemma CollapseStripDoubleSlash(x: string, y: string)
    ensures CollapseSlashes(StripLeadingSlashes(x + "//" + y)) == CollapseSlashes(StripLeadingSlashes(x + "/" + y))
  {
    StripAround(x, "//", y);
    StripAround(x, "/", y);
    if StripLeadingSlashes(x) == [] {
      StripDoubleSlashPrefix(y);
    } else {
      CollapseDoubleSlash(StripLeadingSlashes(x), y);
    }
  }

  /** Two slashes in a row count as one. */
  lemma NormalizeDoubleSlash(a: string, b: string)
    ensures NormalizeKey(a + "//" + b) == NormalizeKey(a + "/" + b)
  {
    BackslashesAround(a, "//", b);
    BackslashesAround(a, "/", b);
    CollapseStripDoubleSlash(BackslashesToSlashes(a), BackslashesToSlashes(b));
  }


  lemma {:induction false} LettersOfBackslashes(k: string)
    ensures Letters(BackslashesToSlashes(k)) == Letters(k)
    decreases |k|
  {
    if k != [] {
      LettersOfBackslashes(k[1..]);
      assert BackslashesToSlashes(k)[1..] == BackslashesToSlashes(k[1..]);
    }
  }

  lemma {:induction false} LettersOfStrip(k: string)
    ensures Letters(StripLeadingSlashes(k)) == Letters(k)
    decreases |k|
  {
    if k != [] && k[0] == '/' {
      LettersOfStrip(k[1..]);
    }
  }

  lemma {:induction false} LettersOfCollapse(k: string)
    ensures Letters(CollapseSlashes(k)) == Letters(k)
    decreases |k|
  {
    if |k| >= 2 {
      LettersOfCollapse(k[1..]);
      if !(k[0] == '/' && k[1] == '/') {
        assert ([k[0]] + CollapseSlashes(k[1..]))[1..] == CollapseSlashes(k[1..]);
      }
    }
  }

  /**
   `normalizeKey` only rewrites separators: the key's other characters
   survive, in order, and none is added.
   */
  lemma NormalizeKeepsLetters(k: string)
    ensures Letters(NormalizeKey(k)) == Letters(k)
  {
    LettersOfBackslashes(k);
    LettersOfStrip(BackslashesToSlashes(k));
    LettersOfCollapse(StripLeadingSlashes(BackslashesToSlashes(k)));
  }

  /* ---------- materializeKey ---------- */

  /** The path of `s` when it parses as an absolute URL with a non-empty path, else `s`. */
  function UrlPathOr(s: string, p: Platform): string {
    match p.urlPathname(s)
    case Some(pathname) => if pathname != [] then pathname else s
    case None => s
  }

  /** `decodeURIComponent(s)`, or `s` itself when decoding fails. */
  function DecodeOrKeep(s: string, p: Platform): string {
    match p.decodeUriComponent(s)
    case Some(d) => d
    case None => s
  }

  /**
   `materializeKey(input)`: `None` stands for `null`/`undefined`. The input
   is trimmed; if it parses as an absolute URL its non-empty path replaces
   it; leading slashes go; it is percent-decoded once (kept as it is when
   decoding fails); and the result is normalised.
   */
  function MaterializeKey(input: Option<string>, p: Platform): (r: string)
    ensures input.None? || input.value == [] ==> r == []
    ensures IsNormalized(r)
  {
    if input.None? || input.value == [] then []
    else NormalizeKey(DecodeOrKeep(StripLeadingSlashes(UrlPathOr(Trim(input.value), p)), p))
  }

  /**
   A relative key without surrounding white space or leading slash comes
   back as the normal form of its decoding.
   */
  lemma MaterializeRelativeKey(k: string, p: Platform)
    requires k != [] && Trim(k) == k && k[0] != '/'
    requires p.urlPathname(k).None?
    ensures MaterializeKey(Some(k), p) == NormalizeKey(DecodeOrKeep(k, p))
  {
    var relative := StripLeadingSlashes(UrlPathOr(k, p));
    assert MaterializeKey(Some(k), p) == NormalizeKey(DecodeOrKeep(relative, p));
    assert relative == k;
  }

  /** A relative key whose decoding is already canonical materialises to that decoding. */
  lemma MaterializeToDecoded(k: string, d: string, p: Platform)
    requires k != [] && Trim(k) == k && k[0] != '/'
    requires p.urlPathname(k).None?
    requires p.decodeUriComponent(k) == Some(d) && IsNormalized(d)
    ensures MaterializeKey(Some(k), p) == d
  {
    MaterializeRelativeKey(k, p);
    NormalizeFixedPoint(d);
  }

  lemma TrimmedPercent()
    ensures Trim("%2541.png") == "%2541.png"
  {
    TrimOfTrimmed("%2541.png");
  }

  lemma TrimmedLetter()
    ensures Trim("%41.png") == "%41.png"
  {
    TrimOfTrimmed("%41.png");
  }

  lemma NormalizedSpellings()
    ensures IsNormalized("%41.png") && IsNormalized("A.png")
  {
  }

  lemma MaterializeEscapedPercent(p: Platform)
    requires p.urlPathname("%2541.png").None?
    requires p.decodeUriComponent("%2541.png") == Some("%41.png")
    ensures MaterializeKey(Some("%2541.png"), p) == "%41.png"
  {
    TrimmedPercent();
    NormalizedSpellings();
    MaterializeToDecoded("%2541.png", "%41.png", p);
  }

  lemma MaterializeEscapedLetter(p: Platform)
    requires p.urlPathname("%41.png").None?
    requires p.decodeUriComponent("%41.png") == Some("A.png")
    ensures MaterializeKey(Some("%41.png"), p) == "A.png"
  {
    TrimmedLetter();
    NormalizedSpellings();
    MaterializeToDecoded("%41.png", "A.png", p);
  }

  /**
   `materializeKey` is not idempotent: it percent-decodes on every call.
   With a decoder that behaves as `decodeURIComponent` does on the two
   strings below, a key that literally contains `%41` is turned into `A`
   by a second call.
   */
  lemma MaterializeDecodesEachCall(p: Platform)
    requires p.urlPathname("%2541.png").None? && p.urlPathname("%41.png").None?
    requires p.decodeUriComponent("%2541.png") == Some("%41.png")
    requires p.decodeUriComponent("%41.png") == Some("A.png")
    ensures MaterializeKey(Some("%2541.png"), p) == "%41.png"
    ensures MaterializeKey(Some(MaterializeKey(Some("%2541.png"), p)), p) == "A.png"
  {
    MaterializeEscapedPercent(p);
    MaterializeEscapedLetter(p);
  }
}

=== FILE: store.dfy ===
/**
 The R2 bucket behind the admin worker, as an immutable map from keys to
 objects, and the two catalog steps that touch it: `rebuildIcons` (list
 everything, then derive the catalog) and `saveIconsJson` (write the
 manifest under its reserved key).

 The bucket lists its keys in code-point order, `ListLimit` keys per page,
 handing back an opaque non-empty cursor after every page but the last.
 */
module Store {
  import opened Strings
  import opened Catalog

  type Byte = bv8

  /** An object's payload: uploaded bytes, or the manifest document written by `saveIconsJson`. */
  datatype Body = Blob(bytes: seq<Byte>) | ManifestDoc(manifest: Manifest)

  /** A stored object with its HTTP metadata. */
  datatype Obj = Obj(body: Body, contentType: Option<string>, cacheControl: Option<string>)

  type Bucket = map<string, Obj>

  /** The `limit` of every `list` call of `listAllObjects`. */
  const ListLimit: nat := 1000

  const ManifestContentType: string := "application/json; charset=utf-8"
  const ManifestCacheControl: string := "no-store"

  /* ---------- key order ---------- */

  predicate IsLeast(m: string, s: set<string>) {
    m in s && forall y :: y in s ==> LexLe(m, y)
  }

  lemma {:induction false} LeastExists(s: set<string>)
    requires s != {}
    ensures exists m :: IsLeast(m, s)
    decreases |s|
  {
    var x :| x in s;
    if s - {x} == {} {
      assert s == {x};
      LexLeReflexive(x);
      assert IsLeast(x, s);
    } else {
      LeastExists(s - {x});
      var m :| IsLeast(m, s - {x});
      LexLeTotal(m, x);
      if LexLe(m, x) {
        assert IsLeast(m, s);
      } else {
        assert LexLe(x, m);
        forall y | y in s
          ensures LexLe(x, y)
        {
          if y == x {
            LexLeReflexive(x);
          } else {
            LexLeTransitive(x, m, y);
          }
        }
        assert IsLeast(x, s);
      }
    }
  }

  lemma LeastUnique(s: set<string>)
    ensures forall a, b :: IsLeast(a, s) && IsLeast(b, s) ==> a == b
  {
    forall a, b | IsLeast(a, s) && IsLeast(b, s)
      ensures a == b
    {
      LexLeAntisymmetric(a, b);
    }
  }

  predicate StrictlySorted(s: seq<string>) {
    forall i, j :: 0 <= i < j < |s| ==> LexLe(s[i], s[j]) && s[i] != s[j]
  }

  /** The keys of a set in ascending order, smallest first. */
  function SortedKeys(s: set<string>): (r: seq<string>)
    ensures StrictlySorted(r)
    ensures forall k :: k in r <==> k in s
    ensures |r| == |s|
    decreases |s|
  {
    if s == {} then []
    else
      LeastExists(s);
      LeastUnique(s);
      var m :| IsLeast(m, s);
      var rest := SortedKeys(s - {m});
      ConsLeast(m, s, rest);
      [m] + rest
  }

  /** The least key in front of the sorted others sorts the whole set. */
  lemma ConsLeast(m: string, s: set<string>, rest: seq<string>)
    requires IsLeast(m, s)
    requires StrictlySorted(rest) && (forall k :: k in rest <==> k in s - {m}) && |rest| == |s - {m}|
    ensures StrictlySorted([m] + rest)
    ensures forall k :: k in [m] + rest <==> k in s
    ensures |[m] + rest| == |s|
  {
    var r := [m] + rest;
    forall i, j | 0 <= i < j < |r|
      ensures LexLe(r[i], r[j]) && r[i] != r[j]
    {
      assert r[j] == rest[j - 1] && rest[j - 1] in s - {m};
      if i > 0 {
        assert r[i] == rest[i - 1];
      }
    }
  }

  /* ---------- pagination ---------- */

  /** The cursor handed back after a truncated page: opaque to the worker, and never empty. */
  function CursorAfter(lastKey: string): (c: string)
    ensures c != []
  {
    "after:" + lastKey
  }

  /** The pages of successive `list` calls over `keys`, at most `limit` keys each. */
  function Paginate(keys: seq<string>, limit: nat): (pages: seq<Page>)
    requires limit > 0
    ensures WellFormedListing(pages)
    ensures Flatten(pages) == keys
    ensures forall i :: 0 <= i < |pages| ==> |pages[i].objects| <= limit
    decreases |keys|
  {
    if |keys| <= limit then
      var pages := [Page(keys, false, None)];
      assert Flatten(pages[1..]) == [];
      pages
    else
      var first := Page(keys[..limit], true, Some(CursorAfter(keys[limit - 1])));
      var rest := Paginate(keys[limit..], limit);
      var pages := [first] + rest;
      assert pages[1..] == rest;
      assert keys == keys[..limit] + keys[limit..];
      assert forall i :: 1 <= i < |pages| ==> pages[i] == rest[i - 1];
      pages
  }

  /** What the bucket answers to the `list` calls of one `listAllObjects`. */
  function Listing(b: Bucket): (pages: seq<Page>)
    ensures WellFormedListing(pages)
    ensures Flatten(pages) == SortedKeys(b.Keys)
  {
    Paginate(SortedKeys(b.Keys), ListLimit)
  }

  /** `listAllObjects("")` on the bucket: every key, once, in order. */
  function ListBucket(b: Bucket): (keys: seq<string>)
    ensures keys == SortedKeys(b.Keys)
  {
    var pages := Listing(b);
    ListAllObjectsComplete(pages);
    ListAllObjects(pages)
  }

  /* ---------- rebuild and save ---------- */

  /** The keys of the bucket the catalog must list. */
  function ImageKeys(b: Bucket): set<string> {
    set k | k in b && IsImageKey(k)
  }

  lemma ListedImageKeys(b: Bucket)
    ensures Distinct(ListBucket(b))
    ensures (set k | k in ListBucket(b) && IsImageKey(k)) == ImageKeys(b)
  {
  }

  /** `rebuildIcons()` against the bucket. */
  function Rebuild(b: Bucket): (icons: seq<Icon>)
    ensures Describes(icons, ImageKeys(b))
  {
    var keys := ListBucket(b);
    ListedImageKeys(b);
    RebuildDescribesImageKeys(keys);
    RebuildIcons(keys)
  }

  /** `saveIconsJson(icons)`: writes the manifest document, returns the payload. */
  function SaveIconsJson(b: Bucket, icons: seq<Icon>, now: string): (r: (Bucket, Manifest))
    ensures r.1.icons == icons && r.1.count == |icons|
    ensures IconsKey in r.0 && r.0[IconsKey].body == ManifestDoc(r.1)
    ensures r.0[IconsKey].contentType == Some(ManifestContentType)
    ensures r.0[IconsKey].cacheControl == Some(ManifestCacheControl)
    ensures r.0 - {IconsKey} == b - {IconsKey}
  {
    var m := MakeManifest(icons, now);
    (b[IconsKey := Obj(ManifestDoc(m), Some(ManifestContentType), Some(ManifestCacheControl))], m)
  }

  /**
   The catalog invariant: the manifest object exists, its count is the
   number of its entries, and its entries describe exactly the image keys
   of the bucket, sorted.
   */
  predicate CatalogConsistent(b: Bucket) {
    && IconsKey in b
    && b[IconsKey].body.ManifestDoc?
    && b[IconsKey].body.manifest.count == |b[IconsKey].body.manifest.icons|
    && Describes(b[IconsKey].body.manifest.icons, ImageKeys(b))
  }

  lemma ImageKeysIgnoreManifest(a: Bucket, b: Bucket)
    requires a - {IconsKey} == b - {IconsKey}
    ensures ImageKeys(a) == ImageKeys(b)
  {
    forall k | IsImageKey(k)
      ensures k in a <==> k in b
    {
      assert k in a <==> k in a - {IconsKey};
      assert k in b <==> k in b - {IconsKey};
    }
  }

  /**
   `saveIconsJson(await rebuildIcons())`, the closing step of every
   successful request: the manifest now describes the bucket, nothing but
   the manifest was written, and the reported count is the number of image
   keys.
   */
  function RebuildAndSave(b: Bucket, now: string): (r: (Bucket, Manifest))
    ensures CatalogConsistent(r.0)
    ensures r.0 - {IconsKey} == b - {IconsKey}
    ensures ImageKeys(r.0) == ImageKeys(b)
    ensures r.1.count == |r.1.icons| == |ImageKeys(b)|
    ensures r.0[IconsKey].body == ManifestDoc(r.1)
  {
    var icons := Rebuild(b);
    var r := SaveIconsJson(b, icons, now);
    ImageKeysIgnoreManifest(r.0, b);
    r
  }
}

=== FILE: strings.dfy ===
/**
 Text helpers shared by the workers and the browser client: an `Option`
 type, the JavaScript string primitives the code relies on (`toLowerCase`,
 `trim`, `startsWith`, `endsWith`, `includes`, `lastIndexOf`), decimal
 rendering of numbers and the code-point lexicographic order used for
 sorting and listing keys.
 */
module Strings {

  datatype Option<T> = None | Some(value: T)

  /** `a || b` for an optional string `a`: `a` when it is present and non-empty, `b` otherwise. */
  function OrElse(a: Option<string>, b: string): (r: string)
    ensures a.Some? && a.value != [] ==> r == a.value
    ensures a.None? || a.value == [] ==> r == b
  {
    if a.Some? && a.value != [] then a.value else b
  }

  /* ---------- lower-casing ---------- */

  predicate IsAsciiUpper(c: char) {
    'A' <= c <= 'Z'
  }

  /** `toLowerCase` restricted to ASCII letters; other characters are kept. */
  function LowerChar(c: char): (r: char)
    ensures IsAsciiUpper(c) ==> r as int == c as int + 32
    ensures !IsAsciiUpper(c) ==> r == c
    ensures !IsAsciiUpper(r)
  {
    if IsAsciiUpper(c) then (c as int + 32) as char else c
  }

  function ToLower(s: string): (r: string)
    ensures |r| == |s|
    ensures forall i :: 0 <= i < |s| ==> r[i] == LowerChar(s[i])
  {
    seq(|s|, i requires 0 <= i < |s| => LowerChar(s[i]))
  }

  lemma ToLowerIdempotent(s: string)
    ensures ToLower(ToLower(s)) == ToLower(s)
  {
  }

  lemma ToLowerAppend(a: string, b: string)
    ensures ToLower(a + b) == ToLower(a) + ToLower(b)
  {
    assert forall i :: 0 <= i < |a + b| ==> ToLower(a + b)[i] == (ToLower(a) + ToLower(b))[i];
  }

  /* ---------- affixes and search ---------- */

  predicate StartsWith(s: string, prefix: string) {
    |prefix| <= |s| && s[..|prefix|] == prefix
  }

  predicate EndsWith(s: string, suffix: string) {
    |suffix| <= |s| && s[|s| - |suffix|..] == suffix
  }

  /** `s.includes(t)`: `t` occurs at some position of `s`. */
  predicate Contains(s: string, t: string) {
    exists i :: 0 <= i <= |s| - |t| && OccursAt(s, t, i)
  }

  predicate OccursAt(s: string, t: string, i: int) {
    0 <= i <= |s| - |t| && s[i..i + |t|] == t
  }

  /** `s.lastIndexOf(c)`, with `None` standing for -1. */
  function LastIndexOf(s: string, c: char): (r: Option<nat>)
    ensures r.None? <==> c !in s
    ensures r.Some? ==> r.value < |s| && s[r.value] == c && c !in s[r.value + 1..]
  {
    if |s| == 0 then None
    else if s[|s| - 1] == c then Some(|s| - 1)
    else
      var r := LastIndexOf(s[..|s| - 1], c);
      assert s == s[..|s| - 1] + [s[|s| - 1]];
      r
  }

  /* ---------- trim ---------- */

  /** The WhiteSpace and LineTerminator code points that `String.prototype.trim` removes. */
  predicate IsJsSpace(c: char) {
    || c == '\t' || c == '\n' || c == '\U{000B}' || c == '\U{000C}' || c == '\r'
    || c == ' ' || c == '\U{00A0}' || c == '\U{1680}'
    || ('\U{2000}' <= c <= '\U{200A}')
    || c == '\U{2028}' || c == '\U{2029}' || c == '\U{202F}' || c == '\U{205F}'
    || c == '\U{3000}' || c == '\U{FEFF}'
  }

  function TrimStart(s: string): (r: string)
    ensures |r| <= |s| && r == s[|s| - |r|..]
    ensures forall i :: 0 <= i < |s| - |r| ==> IsJsSpace(s[i])
    ensures r == [] || !IsJsSpace(r[0])
  {
    if s == [] || !IsJsSpace(s[0]) then s else TrimStart(s[1..])
  }

  function TrimEnd(s: string): (r: string)
    ensures |r| <= |s| && r == s[..|r|]
    ensures forall i :: |r| <= i < |s| ==> IsJsSpace(s[i])
    ensures r == [] || !IsJsSpace(r[|r| - 1])
  {
    if s == [] || !IsJsSpace(s[|s| - 1]) then s else TrimEnd(s[..|s| - 1])
  }

  /** `r` is the slice of `s` starting at `i`, with only white space around it. */
  predicate TrimmedAt(s: string, r: string, i: int) {
    && OccursAt(s, r, i)
    && (forall j :: 0 <= j < i ==> IsJsSpace(s[j]))
    && (forall j :: i + |r| <= j < |s| ==> IsJsSpace(s[j]))
  }

  /** `s.trim()`: the slice of `s` between its leading and its trailing white space. */
  function Trim(s: string): (r: string)
    ensures exists i :: TrimmedAt(s, r, i)
    ensures r == [] || (!IsJsSpace(r[0]) && !IsJsSpace(r[|r| - 1]))
  {
    var t := TrimStart(s);
    var r := TrimEnd(t);
    var i := |s| - |t|;
    assert TrimmedAt(s, r, i);
    r
  }

  lemma TrimOfTrimmed(s: string)
    requires s == [] || (!IsJsSpace(s[0]) && !IsJsSpace(s[|s| - 1]))
    ensures Trim(s) == s
  {
  }

  /* ---------- numbers ---------- */

  function DigitChar(d: nat): (c: char)
    requires d < 10
    ensures '0' <= c <= '9'
  {
    ('0' as int + d) as char
  }

  /** Decimal rendering of a natural number, as `String(n)` gives it. */
  function NatToString(n: nat): (r: string)
    ensures |r| > 0
    ensures forall i :: 0 <= i < |r| ==> '0' <= r[i] <= '9'
    ensures |r| > 1 ==> r[0] != '0'
    decreases n
  {
    if n < 10 then [DigitChar(n)] else NatToString(n / 10) + [DigitChar(n % 10)]
  }

  /** The value of a string of decimal digits, most significant first. */
  function DecimalValue(s: string): (n: nat)
    requires forall i :: 0 <= i < |s| ==> '0' <= s[i] <= '9'
  {
    if s == [] then 0 else DecimalValue(s[..|s| - 1]) * 10 + (s[|s| - 1] as int - '0' as int)
  }

  /** Reading back the decimal rendering of `n` gives `n`. */
  lemma {:induction false} NatToStringRoundTrip(n: nat)
    ensures DecimalValue(NatToString(n)) == n
    decreases n
  {
    if n >= 10 {
      var s := NatToString(n);
      NatToStringRoundTrip(n / 10);
      assert s[..|s| - 1] == NatToString(n / 10);
    }
  }

  function IntToString(n: int): (r: string)
    ensures |r| > 0
  {
    if n < 0 then "-" + NatToString(-n) else NatToString(n)
  }

  /* ---------- lexicographic order ---------- */

  /**
   Code-point lexicographic order: `a` is a prefix of `b`, or `a` has the
   smaller character at the first position where the two differ.
   */
  predicate LexLe(a: string, b: string)
    decreases |a|
  {
    |a| == 0 || (|b| > 0 && (a[0] < b[0] || (a[0] == b[0] && LexLe(a[1..], b[1..]))))
  }

  lemma {:induction false} LexLeReflexive(a: string)
    ensures LexLe(a, a)
    decreases |a|
  {
    if |a| > 0 {
      LexLeReflexive(a[1..]);
    }
  }

  lemma {:induction false} LexLeAntisymmetric(a: string, b: string)
    requires LexLe(a, b) && LexLe(b, a)
    ensures a == b
    decreases |a|
  {
    if |a| > 0 {
      LexLeAntisymmetric(a[1..], b[1..]);
      assert a == [a[0]] + a[1..];
      assert b == [b[0]] + b[1..];
    }
  }

  lemma {:induction false} LexLeTransitive(a: string, b: string, c: string)
    requires LexLe(a, b) && LexLe(b, c)
    ensures LexLe(a, c)
    decreases |a|
  {
    if |a| > 0 && a[0] == b[0] && b[0] == c[0] {
      LexLeTransitive(a[1..], b[1..], c[1..]);
    }
  }

  lemma {:induction false} LexLeTotal(a: string, b: string)
    ensures LexLe(a, b) || LexLe(b, a)
    decreases |a|
  {
    if |a| > 0 && |b| > 0 && a[0] == b[0] {
      LexLeTotal(a[1..], b[1..]);
    }
  }
}

=== FILE: thumb.dfy ===
/**
 The thumbnail worker (worker/thumb.js): it reads the source image named
 by the `file` query parameter and returns its bytes with the resize
 options for the platform's image transformation and the response headers
 derived from the chosen format. The transformation itself is done by the
 platform after the worker returns and is not part of this model.
 */
module Thumb {
  import opened Strings
  import Store

  /** The decoded query string: name/value pairs in order, as `url.searchParams` holds them. */
  type Query = seq<(string, string)>

  /** A source image in the bucket: its bytes and its `httpEtag`, if any. */
  datatype Source = Source(bytes: seq<Store.Byte>, httpEtag: Option<string>)

  type Images = map<string, Source>

  /** The options handed to the platform as `cf.image`, all as the strings the query gave. */
  datatype ResizeOptions = ResizeOptions(width: string, height: string, fit: string, quality: string, format: string)

  datatype ThumbResponse =
    /** 200: the source bytes, to be transformed with `image`, and the headers. */
    | Transformed(body: seq<Store.Byte>, contentType: string, cacheControl: string, etag: Option<string>, image: ResizeOptions)
    /** A plain-text refusal. */
    | Refused(status: int, message: string)

  const DefaultWidth: string := "200"
  const DefaultFit: string := "cover"
  const DefaultQuality: string := "80"
  const DefaultFormat: string := "webp"
  const ThumbCacheControl: string := "public, max-age=86400"
  const MissingFileMessage: string := "V2 Script Deployed - Error: Missing file param"

  /* ---------- query parameters ---------- */

  /** The first pair of `q` named `name` is at `i`. */
  predicate FirstAt(q: Query, name: string, i: int) {
    0 <= i < |q| && q[i].0 == name && forall j :: 0 <= j < i ==> q[j].0 != name
  }

  /** `url.searchParams.get(name)`: the value of the first pair with that name, `None` for `null`. */
  function Param(q: Query, name: string): (r: Option<string>)
    ensures r.None? <==> forall i :: 0 <= i < |q| ==> q[i].0 != name
    ensures r.Some? ==> exists i :: FirstAt(q, name, i) && q[i].1 == r.value
  {
    if q == [] then None
    else if q[0].0 == name then
      assert FirstAt(q, name, 0);
      Some(q[0].1)
    else
      var r := Param(q[1..], name);
      if r.Some? then
        var i :| FirstAt(q[1..], name, i) && q[1..][i].1 == r.value;
        assert FirstAt(q, name, i + 1);
        r
      else r
  }

  /** The parameter is present with a non-empty value, i.e. `searchParams.get(name)` is truthy. */
  predicate Given(q: Query, name: string) {
    Param(q, name).Some? && Param(q, name).value != []
  }

  /**
   The resize options chosen from the query: width from `w`, then `width`,
   then 200; height from `h`, then `height`, then the chosen width; fit,
   quality and format with their defaults. Values are passed on unchecked.
   */
  function ChooseOptions(q: Query): (o: ResizeOptions)
    ensures Given(q, "w") ==> o.width == Param(q, "w").value
    ensures !Given(q, "w") && Given(q, "width") ==> o.width == Param(q, "width").value
    ensures !Given(q, "w") && !Given(q, "width") ==> o.width == DefaultWidth
    ensures Given(q, "h") ==> o.height == Param(q, "h").value
    ensures !Given(q, "h") && Given(q, "height") ==> o.height == Param(q, "height").value
    ensures !Given(q, "h") && !Given(q, "height") ==> o.height == o.width
    ensures Given(q, "fit") ==> o.fit == Param(q, "fit").value
    ensures !Given(q, "fit") ==> o.fit == DefaultFit
    ensures Given(q, "quality") ==> o.quality == Param(q, "quality").value
    ensures !Given(q, "quality") ==> o.quality == DefaultQuality
    ensures Given(q, "f") ==> o.format == Param(q, "f").value
    ensures !Given(q, "f") && Given(q, "format") ==> o.format == Param(q, "format").value
    ensures !Given(q, "f") && !Given(q, "format") ==> o.format == DefaultFormat
    ensures o.width != [] && o.height != [] && o.fit != [] && o.quality != [] && o.format != []
  {
    var w := OrElse(Param(q, "w"), OrElse(Param(q, "width"), DefaultWidth));
    var h := OrElse(Param(q, "h"), OrElse(Param(q, "height"), w));
    ResizeOptions(w, h, OrElse(Param(q, "fit"), DefaultFit), OrElse(Param(q, "quality"), DefaultQuality),
                  OrElse(Param(q, "f"), OrElse(Param(q, "format"), DefaultFormat)))
  }

  /** `etag` is copied from the source only when its `httpEtag` is a non-empty string. */
  function EtagOf(src: Source): (e: Option<string>)
    ensures e.Some? <==> src.httpEtag.Some? && src.httpEtag.value != []
    ensures e.Some? ==> e == src.httpEtag
  {
    if src.httpEtag.Some? && src.httpEtag.value != [] then src.httpEtag else None
  }

  /* ---------- the request ---------- */

  /** A GET of the thumbnail worker with query `q` against the bucket `images`. */
  function HandleThumb(images: Images, q: Query): (r: ThumbResponse)
    ensures !Given(q, "file") ==> r == Refused(400, MissingFileMessage)
    ensures Given(q, "file") && Param(q, "file").value !in images ==> r.Refused? && r.status == 404
    ensures Given(q, "file") && Param(q, "file").value in images ==>
      var src := images[Param(q, "file").value];
      && r.Transformed?
      && r.body == src.bytes
      && r.image == ChooseOptions(q)
      && StartsWith(r.contentType, "image/") && r.contentType[6..] == r.image.format
      && r.cacheControl == ThumbCacheControl
      && r.etag == EtagOf(src)
  {
    var file := Param(q, "file");
    if !Given(q, "file") then Refused(400, MissingFileMessage)
    else if file.value !in images then Refused(404, "Not found in R2")
    else
      var src := images[file.value];
      var opts := ChooseOptions(q);
      Transformed(src.bytes, "image/" + opts.format, ThumbCacheControl, EtagOf(src), opts)
  }

  /* ---------- properties ---------- */

  /** Without a `file` parameter the answer is 400 before the bucket is consulted. */
  lemma MissingFileIgnoresBucket(a: Images, b: Images, q: Query)
    requires !Given(q, "file")
    ensures HandleThumb(a, q) == HandleThumb(b, q)
    ensures HandleThumb(a, q).status == 400
  {
  }

  /** Only the `file` parameter and the source object decide between 400, 404 and 200. */
  lemma OutcomeDependsOnFileOnly(images: Images, q1: Query, q2: Query)
    requires Param(q1, "file") == Param(q2, "file")
    ensures HandleThumb(images, q1).Transformed? <==> HandleThumb(images, q2).Transformed?
    ensures HandleThumb(images, q1).Refused? ==> HandleThumb(images, q1) == HandleThumb(images, q2)
  {
  }

  /** Pairs that come after the first occurrence of a name do not change what `get` returns. */
  lemma {:induction false} ParamIgnoresLaterPairs(q: Query, extra: Query, name: string)
    requires Param(q, name).Some?
    ensures Param(q + extra, name) == Param(q, name)
  {
    if q[0].0 != name {
      assert (q + extra)[1..] == q[1..] + extra;
      ParamIgnoresLaterPairs(q[1..], extra, name);
    }
  }

  /** A query that gives only `w` gets a square thumbnail of that width. */
  lemma SquareByDefault(q: Query)
    requires Given(q, "w") && !Given(q, "h") && !Given(q, "height")
    ensures ChooseOptions(q).height == ChooseOptions(q).width == Param(q, "w").value
  {
  }

  /** Concrete defaults: an otherwise empty query gives 200x200, cover, quality 80, webp. */
  lemma Defaults(file: string)
    requires file != []
    ensures ChooseOptions([("file", file)]) == ResizeOptions("200", "200", "cover", "80", "webp")
  {
    var q := [("file", file)];
    assert !Given(q, "w") && !Given(q, "width") && !Given(q, "h") && !Given(q, "height");
    assert !Given(q, "fit") && !Given(q, "quality") && !Given(q, "f") && !Given(q, "format");
  }

  /** No clamping: an out-of-range quality is passed to the platform as it came. */
  lemma QualityNotClamped(file: string)
    requires file != []
    ensures ChooseOptions([("file", file), ("quality", "500")]).quality == "500"
  {
    var q := [("file", file), ("quality", "500")];
    assert Param(q, "quality") == Some("500");
  }
}
